=== FILE: README.md ===
# rustytok in Dafny

A functional model of the decision logic of rustytok, a privacy front-end that fetches
public TikTok pages on the server and renders them without trackers. The model covers:

- the **schema resolvers** that turn the JSON state embedded in a TikTok page into a
  profile, a video or a hashtag, probing alternative document shapes in a fixed order,
  and the page wrappers that degrade every miss to a fixed placeholder entity
  (`parser.dfy`, over the JSON tree of `json.dfy`);
- the **upstream fetch dispatch**: the URL each entity is fetched from and how an upstream
  status becomes `NotFound`, a fetch error or a parsed page (`client.dfy`);
- the **search box** on the home page, which classifies a query into a redirect to a
  profile, hashtag, video or short-link path (`home.dfy`);
- the **media proxy guard**: the CDN allow-list and the decode → check → fetch → answer
  order of the proxy handler (`proxy.dfy`);
- the **router**: which of the five routes a request path reaches (`router.dfy`);
- the **small total mappings**: error variants to status codes and error pages
  (`errors.dfy`), proxied media links (`types.dfy`), sigil stripping on the profile and
  hashtag routes (`routes.dfy`).

Supporting modules: `outcomes.dfy` (`Option`, `Result`), `numeric.dfy` (the `u64`, `i64`,
`u8` and status-code ranges), `text.dfy` (the `str` operations used: `starts_with`,
`contains`, `find`, `split(c).next()`, `trim`, `trim_start_matches`, decimal rendering)
and `url_encoding.dfy` (the `urlencoding` crate: UTF-8, percent-encoding of every byte
outside the unreserved set of RFC 3986 section 2.3 with upper-case hex digits as in
section 2.1, and decoding with strict UTF-8 validation).

The network, the regex engine and the JSON text parser are parameters: a `Transport` or
`MediaFetch` function stands for the HTTP client, and a `Scanner` record holds "the first
capture of pattern k", "the successive captures of `<script[^>]*>(.*?)</script>` in page
order" and "parse JSON text". That pattern has no dot-all flag, so a capture never holds a
line feed and a script whose body spans several lines is not among them.

Consequences of the code's order of tests and of the framework it runs on:

- a query naming `tiktok.com` that the URL parser cannot place renders the home page
  again; it is not treated as a bare handle;
- a short link is redirected to `/redirect` with the URL percent-encoded into the `url`
  query value; the router mounts no `/redirect` route, so that redirect reaches no handler;
- a profile URL that also names a video (`/@user/video/123`) yields the raw path from
  `/@`, not a video route, because the `/@` test comes first;
- a redirect whose location holds a character no header value can carry, such as a line
  feed inside the query that trimming leaves in place, is not sent;
- the proxy handler decodes a `url` value the framework has already decoded, so a media
  URL holding a `%` escape is fetched altered (see Findings).

## Model

| member | source | states |
|---|---|---|
| Parser.ExtractIsFirstSuccess | src/tiktok/parser.rs:8-41 | the extracted document is the parse of the first candidate payload that parses, candidates being the SIGI_STATE capture, then the rehydration capture, then every script body carrying a quoted `UserModule` or `ItemModule` marker, in page order; none parsing gives nothing |
| Parser.ExtractPrefersSigiState | src/tiktok/parser.rs:15-25 | a parseable SIGI_STATE payload is the result whatever else the page holds |
| Parser.ExtractSkipsUnparseable | src/tiktok/parser.rs:15-25 | an unparseable SIGI_STATE payload moves on to the rehydration payload instead of aborting |
| Parser.ScanScriptsSingleLine | src/tiktok/parser.rs:27-38 | whatever the generic scan returns is the parse of a captured script body that holds no line feed and contains one of the two quoted markers |
| Parser.ScanScriptsNeedsMarker | src/tiktok/parser.rs:28-38 | whatever the generic scan returns is the parse of a script body that contains one of the two quoted markers |
| Parser.TryConventionsFirstParsed | src/tiktok/parser.rs:15-25 | the fixed-pattern loop returns the first capture that parses, in pattern order |
| Parser.ScanScriptsFirstParsed | src/tiktok/parser.rs:29-38 | the script loop returns the first marked body that parses, skipping unmarked and unparseable ones |
| Parser.ParseUserPage | src/tiktok/parser.rs:43-67 | always `Ok` with no videos; a resolved profile is returned unchanged; on any miss the placeholder has id `unknown`, handle and display name equal to the requested key, the fixed bio note `Profile information could not be loaded. TikTok may have changed their page structure.`, empty avatar and zero counters |
| Parser.ParseUserFromJson | src/tiktok/parser.rs:69-89 | if `__DEFAULT_SCOPE__` → `webapp.user-detail` → `userInfo` exists the result is that object's mapping, present exactly when it has `user`, and `UserModule` is never consulted; otherwise a profile exists exactly when both `UserModule.users[key]` and `UserModule.stats[key]` exist |
| Parser.ParseUserInfoObject | src/tiktok/parser.rs:91-110 | present exactly when `user` exists; handle and display name default to the requested key; avatar is the first string among `avatarLarger`, `avatarMedium`, else empty; likes are the first `u64` among `heartCount`, `heart`, else 0; missing `stats` gives all-zero counters |
| Parser.ParseLegacyUserObject | src/tiktok/parser.rs:112-127 | present exactly when `UserModule.stats[key]` exists; reads only `avatarLarger` for the avatar and only `heartCount` for likes, with no fallback field |
| Parser.ParseVideoPage | src/tiktok/parser.rs:129-154 | always `Ok`; a resolved video is returned unchanged; on any miss the placeholder carries the requested id, the fixed description `Video information could not be loaded.`, author `unknown`/`Unknown` with an empty avatar, empty video and thumbnail links, zero counters and time, and no music |
| Parser.ParseVideoFromJson | src/tiktok/parser.rs:156-182 | a video is found exactly when the `itemStruct` path exists, or `ItemModule[id]` exists, or `ItemModule` is a non-empty object; in that order of preference, the last taking the object's first entry even when it holds several |
| Parser.ParseVideoItem | src/tiktok/parser.rs:184-218 | always present; text fields fall back to empty or `unknown`/`Unknown`, counters that are not `u64` become 0, a `createTime` that is not `i64` becomes 0, and each music field is present exactly when `music` exists and holds a string there |
| Parser.MediaUrl | src/tiktok/parser.rs:191-194 | a present `playAddr` wins even when it is not a string (giving the empty link); `downloadAddr` is read only when `playAddr` is absent |
| Parser.ThumbnailUrl | src/tiktok/parser.rs:196-200 | the first present key among `cover`, `originCover`, `dynamicCover` decides, giving the empty link when its value is not a string |
| Parser.MusicField | src/tiktok/parser.rs:215-216 | a music field is present exactly when the `music` entry exists and holds a string under the key |
| Parser.TagFromChallengeInfo | src/tiktok/parser.rs:240-248 | present exactly when `challenge` exists; the name is `challenge.title` when that is a string, else the requested key; the view count reads `stats.viewCount` or 0 |
| Parser.ParseTagFromJson | src/tiktok/parser.rs:236-267 | a document reaching `webapp.challenge-detail` commits to it, giving nothing when `challengeInfo.challenge` is missing there without trying `ChallengePage`; otherwise `ChallengePage.challengeInfo.challenge` must exist |
| Parser.ParseTagPage | src/tiktok/parser.rs:220-234 | always `Ok` with no videos; on any miss the tag is named by the requested key with a zero view count |
| Json.Get | src/tiktok/parser.rs:71-73 | `get` is present exactly on an object that has the key, whatever the value, `null` included, and then gives the value of the first entry with that key, no earlier entry carrying it |
| Json.GetSeesNull | src/tiktok/parser.rs:185-188 | an entry holding `null` is still found by `get`, and `get` on a non-object finds nothing |
| Json.AsU64 | src/tiktok/parser.rs:210-213 | `as_u64` accepts exactly the integers in `0 .. 2^64` and returns them unchanged |
| Json.AsI64 | src/tiktok/parser.rs:214 | `as_i64` accepts exactly the integers in `-2^63 .. 2^63` and returns them unchanged |
| Json.AsStr | src/tiktok/parser.rs:203-207 | `as_str` accepts exactly strings |
| Json.StrField | src/tiktok/parser.rs:203-207 | a string field is read exactly when the key holds a string, and its value is that string |
| Json.U64Field | src/tiktok/parser.rs:210-213 | a counter is read exactly when the key holds an integer that fits `u64` |
| Json.I64Field | src/tiktok/parser.rs:214 | a timestamp is read exactly when the key holds an integer that fits `i64` |
| Client.UserUrl | src/tiktok/client.rs:23 | the profile page is `https://www.tiktok.com/@` followed by the handle, which is exactly the text after that prefix |
| Client.VideoUrl | src/tiktok/client.rs:49 | the video page is `https://www.tiktok.com/video/` followed by the id, which is exactly the text after that prefix |
| Client.TagUrl | src/tiktok/client.rs:74 | the hashtag page is `https://www.tiktok.com/tag/` followed by the name, which is exactly the text after that prefix |
| Client.UpstreamUrlsInjective | src/tiktok/client.rs:23 | each builder gives different keys different pages |
| Client.UpstreamUrlsDisjoint | src/tiktok/client.rs:23 | no profile, video and hashtag page coincide |
| Client.Dispatch | src/tiktok/client.rs:25-43 | a send failure is a fetch error; 404 is `NotFound` before the success test; any other non-2xx is a fetch error; an unreadable body is a fetch error; otherwise the page parser's answer |
| Client.FetchUserOutcome | src/tiktok/client.rs:22-44 | `NotFound` exactly on an upstream 404; a fetch error exactly on a send failure, another non-2xx status or an unreadable body; a 2xx gives the page parse and so always a profile |
| Client.FetchVideoOutcome | src/tiktok/client.rs:47-70 | as for profiles: a 404 never yields a placeholder video, and a 2xx always yields a video |
| Client.FetchTagOutcome | src/tiktok/client.rs:73-95 | as for profiles, for hashtags |
| Client.FetchVideoWithoutStateDegrades | src/tiktok/client.rs:69 | a 200 page with no recognisable state gives the placeholder video for the requested id |
| Home.Answer | src/routes/home.rs:21-49 | a query that is not redirected renders the home page with the query exactly as typed; every other answer targets a same-origin path, `/` followed by the `@`, `v`, `r` or `t` of a profile, video, short-link or tag path, and is a redirect exactly when every character of it fits in a header value, the location being rejected otherwise |
| Home.RedirectTo | src/routes/home.rs:29 | `Redirect::to` redirects exactly when every character of the location is a tab or has code 32 or more other than 127, and otherwise rejects that location |
| Home.Route | src/routes/home.rs:24-44 | each branch of the test chain yields a path `/` followed by `@`, `v`, `r` or `t`; a sigil-free query naming `tiktok.com` gets exactly the URL parser's answer, and only an unplaced one yields none |
| Home.HomePlacedUrl | src/routes/home.rs:33-37 | a sigil-free query naming `tiktok.com` that the URL parser places is answered as `Redirect::to` answers the parser's path, before the digit and handle tests |
| Home.HomeSigils | src/routes/home.rs:27-32 | a trimmed query starting with `@` is answered as `Redirect::to` answers `/` and the query; one starting with `#` as it answers `/tag/` and the query without its first character |
| Home.HomeHandleForms | src/routes/home.rs:27-44 | a handle with no whitespace at its ends, no sigil, no `tiktok.com` and some non-digit, and the same handle behind `@`, are both answered as `Redirect::to` answers `/@` and the handle |
| Home.HomeControlCharRejected | src/routes/home.rs:41-43 | such a handle holding a control character is not redirected: its profile location is rejected |
| Home.HomeDigits | src/routes/home.rs:24-40 | a query that is all digits once trimmed (surrounding whitespace allowed, the empty text included) redirects to `/video/` and the trimmed digits, a location every header carries |
| Home.HomeTrimmedHandle | src/routes/home.rs:24-43 | any query whose trimmed text has no sigil, no `tiktok.com` and some non-digit is answered as `Redirect::to` answers `/@` and the trimmed text |
| Home.HomeBlank | src/routes/home.rs:38-40 | a query that trims to nothing passes the vacuous all-digits test and redirects to `/video/` |
| Home.HomeUnplacedUrl | src/routes/home.rs:33-37 | the home page re-renders the raw query exactly when the trimmed query has no sigil, names `tiktok.com`, and the URL parser cannot place it; such a query is not treated as a handle |
| Home.ParseTikTokUrl | src/routes/home.rs:51-87 | every path the URL parser returns is `/` followed by the `@`, `v`, `r` or `t` of its branch, never `//` or `/\` |
| Home.ParseUserPathUrl | src/routes/home.rs:58-65 | with `/@` present, the result is the text from its first occurrence up to the first following `?`: it starts with `/@`, holds no `?`, and is followed in the URL by `?` or the end |
| Home.ParseVideoPathUrl | src/routes/home.rs:66-73 | otherwise with `/video/`, the result is `/video/` and the id after the first occurrence cut at the first `?` and then the first `/`: the id holds neither and is followed by one of them or the end |
| Home.ParseShortLinkUrl | src/routes/home.rs:74-76 | otherwise a `vm.tiktok.com` or `/t/` URL gives `/redirect?url=` and a value that decodes back to the URL |
| Home.ParseTagPathUrl | src/routes/home.rs:77-83 | otherwise with `/tag/`, the result is `/tag/` and the text after the first occurrence up to the first `?` |
| Home.ParseUnplacedUrl | src/routes/home.rs:77-86 | a URL with none of the markers, or with `/discover/` but no `/tag/`, is not placed |
| Router.Match | src/routes/mod.rs:9-16 | a path reaches a handler only when it is that handler's route path with each capture one non-empty segment without `/` |
| Router.MatchRoutePath | src/routes/mod.rs:9-16 | every route path whose capture is one segment reaches its own handler with that capture |
| Router.ShortLinkUnrouted | src/routes/home.rs:74-76 | the target the home page builds for a short link has path `/redirect`, which none of the routes matches |
| Router.ProfileRouted | src/routes/user.rs:31 | a profile redirect `/@h`, for a handle `h` that is one segment without `?`, reaches the profile handler with `h` as its capture |
| Proxy.IsAllowedUrl | src/routes/proxy.rs:63-76 | a URL is allowed exactly when one of the seven CDN domains occurs in it as a substring |
| Proxy.AllowedInContext | src/routes/proxy.rs:75 | an allowed URL stays allowed with any text put before or after it |
| Proxy.EmptyNotAllowed | src/routes/proxy.rs:75 | the empty URL is not allowed |
| Proxy.AllowedAnywhere | src/routes/proxy.rs:65-75 | `https://evil.example/?x=tiktokcdn.com` is allowed: the test is not a host check |
| Proxy.RefusedWithoutMarkerLetters | src/routes/proxy.rs:65-75 | a URL with no `k`, `u` or `y` in it names none of the domains and is refused |
| Proxy.RefusedElsewhere | src/routes/proxy.rs:65-75 | `https://example.org/` is refused |
| Proxy.HeaderText | src/routes/proxy.rs:44-47 | a header reads as text exactly when every byte is a tab or visible ASCII, and then character for byte |
| Proxy.ForwardedContentType | src/routes/proxy.rs:44-49 | the upstream content type is forwarded when it reads as text, otherwise `application/octet-stream` |
| Proxy.ProxyMedia | src/routes/proxy.rs:20-60 | every successful answer is a 200 with `Cache-Control: public, max-age=86400`; a value the handler's `decode` rejects is `InvalidUrl` with no fetch |
| Proxy.ProxyMediaOnce | src/routes/proxy.rs:26-60 | given a URL, a fetch is issued exactly when it is allowed, and for that URL; otherwise the answer is `InvalidUrl`; every success is a 200 with the one-day public cache |
| Proxy.ProxyValidatesBeforeFetch | src/routes/proxy.rs:20-37 | a fetch is issued exactly when the parameter decodes and the decoded URL is allowed, and it is for that URL; otherwise the answer is `InvalidUrl` with no fetch |
| Proxy.ProxyAnswers | src/routes/proxy.rs:32-60 | after the fetch, a transport failure is exactly a fetch error, a non-2xx status exactly `NotFound`, and a 2xx exactly a 200 reply with the forwarded content type and the one-day public cache |
| Proxy.ProxyLinkDecodedTwice | src/routes/proxy.rs:20-23 | for an allowed media URL ending in `%2B`, the framework hands the handler that media URL, and the handler then fetches the URL with `+` in place of `%2B`, not the media URL |
| Proxy.ProxyOnceRoundTrip | src/routes/proxy.rs:20-34 | decoding once, the link built for any allowed media URL makes the handler fetch exactly that URL |
| Errors.Message | src/error.rs:8-23 | each variant's `Display` text: `TikTok content not found`, `Failed to fetch from TikTok: ` followed by the detail, `Failed to parse TikTok response`, `Invalid URL format`, `Internal server error` |
| Errors.MessageInjective | src/error.rs:8-23 | two errors with the same text are the same error: variants never share a text and a fetch error's text determines its detail |
| Errors.Status | src/error.rs:27-33 | `NotFound` is exactly 404, `InvalidUrl` exactly 400, `Internal` exactly 500, the two upstream failures exactly 502, and no variant maps to a 2xx |
| Errors.IntoResponse | src/error.rs:25-56 | the error page carries the variant's status and message, and its heading is the crying-cat emoji and a space followed by the decimal status, which reads back as that status |
| Types.ProxiedUrl | src/tiktok/types.rs:37-51 | a proxy link is `/proxy?url=` followed by a value that holds only unreserved characters and `%`-escapes and that one round of decoding, the framework's or the crate's, turns back into exactly the media URL |
| Types.ProxiedVideoUrl | src/tiktok/types.rs:37-39 | the video's proxy link decodes back to its media link |
| Types.ProxiedThumbnailUrl | src/tiktok/types.rs:42-44 | the thumbnail's proxy link decodes back to its thumbnail link |
| Types.ProxiedAvatarUrl | src/tiktok/types.rs:49-51 | the avatar's proxy link decodes back to its avatar link |
| Types.ProxiedUrlInjective | src/tiktok/types.rs:38 | different media URLs get different proxy links |
| UrlEncoding.DecodeEncode | src/routes/proxy.rs:21-23 | decoding what the link builders encode gives back the original text, for every string |
| UrlEncoding.FormDecodeEncode | src/routes/proxy.rs:20 | the framework's query decoding of an encoded value gives back the original text, since encoding leaves no `+` |
| UrlEncoding.DecodeEscapedPlus | src/routes/proxy.rs:21-23 | `decode` turns `%2B` after any `%`-free text into `+` |
| UrlEncoding.Utf8RoundTrip | src/routes/proxy.rs:21-23 | strict UTF-8 decoding of the UTF-8 encoding of any text gives that text |
| UrlEncoding.PercentDecodeEncode | src/routes/proxy.rs:21-23 | percent-decoding the percent-encoding of any byte string restores the bytes |
| UrlEncoding.EncodeCharset | src/tiktok/types.rs:38 | the encoding holds only unreserved characters, `%` and upper-case hex digits |
| Routes.NormalizeUsername | src/routes/user.rs:19 | the normalised handle has no leading `@`, is a suffix of the segment, and everything removed was `@` |
| Routes.NormalizeTagName | src/routes/tag.rs:19 | the normalised tag has no leading `#`, is a suffix of the segment, and everything removed was `#` |
| Routes.NormalizeUsernameIdempotent | src/routes/user.rs:19 | normalising a handle twice is normalising it once, and a segment without a leading `@` is left alone |
| Routes.NormalizeTagNameIdempotent | src/routes/tag.rs:19 | normalising a tag name twice is normalising it once, and a segment without a leading `#` is left alone |
| Routes.GetUser | src/routes/user.rs:17-23 | the profile route fails only with `NotFound` or a fetch error |
| Routes.GetTag | src/routes/tag.rs:17-23 | the hashtag route fails only with `NotFound` or a fetch error |
| Routes.UserSigilForms | src/routes/user.rs:19-23 | `@@h`, `@h` and `h` normalise to `h`, fetch `https://www.tiktok.com/@h` and give the same answer |
| Routes.TagSigilForms | src/routes/tag.rs:19-23 | `##t`, `#t` and `t` normalise to `t`, fetch `https://www.tiktok.com/tag/t` and give the same answer |
| Text.Find | src/routes/home.rs:60 | `find` gives the first index where the pattern occurs, and nothing exactly when it occurs nowhere |
| Text.Contains | src/routes/home.rs:58 | `contains` holds exactly when the pattern occurs somewhere |
| Text.BeforeFirst | src/routes/home.rs:63 | `split(c).next()` is the longest prefix without `c`, followed by `c` or the end |
| Text.Trim | src/routes/home.rs:24 | `trim` gives a part `s[a..b]` of the text with only whitespace before `a` and from `b` on, and no whitespace at either end of the result: exactly the whitespace runs at both ends are removed |
| Text.TrimStartMatchesPrefix | src/routes/user.rs:19 | any run of leading `c` in front of text not starting with `c` is removed entirely |
| Text.NatToStringRoundTrip | src/error.rs:52 | the decimal rendering of a number reads back as that number |

## Left out

- Network I/O: the HTTP client, its headers, user agent, redirect policy and timeout, and
  the streaming of media bodies. A fetch is a function parameter returning a status and a
  body, or an error text.
- The regex engine and the JSON text parser: the `Scanner` record supplies the captures,
  the script bodies and the parse. The only properties kept are that the two fixed
  patterns' payloads are non-empty and contain no `<`, and that a script capture holds no
  line feed; which script bodies the lazy pattern captures is not modelled further.
- Floating-point JSON numbers: one `JFloat` constructor stands for all of them; the
  accessors reject it and its value is never read.
- Iteration order of JSON objects: an object is a sequence of entries, `get` finds the
  first entry with the key, and the "first entry" of `ItemModule` is the first in that
  sequence. Which order the JSON library actually uses depends on crate features not part
  of this model. The sequence may also repeat a key, which the library's map never holds
  (a key repeated in the text keeps its last value); the parser is a parameter, so only
  documents it returns matter.
- Client.StatusDetail: the detail text of a non-2xx fetch error is `Status: ` and the
  decimal code; the canonical reason phrase the HTTP library appends is not modelled.
- Proxy.ProxyMedia: the `url` parameter is taken as the web framework hands it over; that
  first decoding is `UrlEncoding.FormDecode`, applied in the lemmas about proxy links.
- UrlEncoding.FormDecode: bytes that are not UTF-8 after percent-decoding give no value,
  where the framework substitutes U+FFFD; the split of the query string at `&` and `=` is
  not modelled, and an encoded value holds neither.
- Routes.GetUser: template rendering and its `Internal` error are not modelled; the route
  answers with the fetched entity.
- Routes.GetTag: as for `GetUser`.
- Home.Answer: a redirect is reduced to its target path and the home page to the query
  handed to the template; the framework's own decoding of `q` is not modelled; for a
  rejected location, whether the framework answers a server error or abandons the
  request is not modelled, only that no redirect is sent.
- Router.Match: only the paths of GET requests are modelled; the percent-decoding of a
  capture and the framework's answer to an unmatched path (404) are not.
- Errors.IntoResponse: the HTML document around the `😿 ` heading and the message paragraph (head, stylesheet link, back link) is not modelled.
- The video route (`src/routes/video.rs`) passes the id straight to the fetch and has no
  logic of its own; `src/main.rs` (start-up, logging, constant security headers)
  and `src/config.rs` (environment variables) are not part of this model.
- Logging and tracing calls.

## Findings

| source | as written | input that shows it | evidently intended | confidence | as-written member | corrected member |
|---|---|---|---|---|---|---|
| src/routes/proxy.rs:20-23 | the `url` value, already percent-decoded by the `Query` extractor, is decoded a second time before the allow-list check and the fetch | the proxy link built for `https://p16-sign.tiktokcdn.com/o?x-signature=a%2B`: the handler fetches `https://p16-sign.tiktokcdn.com/o?x-signature=a+` | decode the link once, so that the link built for a media URL fetches that URL | high; not executed | Proxy.ProxyLinkDecodedTwice | Proxy.ProxyMediaOnce |

=== FILE: client.dfy ===
/** Upstream page fetching (`src/tiktok/client.rs`): the URL each entity is fetched from
    and how the upstream answer becomes an entity or an error. The transport is a
    parameter; the fixed client settings (user agent, headers, redirects, timeout) are not
    modelled. */
module Client {
  import opened Outcomes
  import opened Numeric
  import opened Text
  import opened Types
  import opened Errors
  import opened Parser

  /** What the transport reports for a GET: a failure to send, or a status with a body
      whose reading as text may itself fail. Error texts are the transport's own. */
  datatype Response = Response(status: StatusCode, body: Result<string, string>)
  type Transport = string -> Result<Response, string>

  const UPSTREAM: string := "https://www.tiktok.com"

  /** The profile page of a handle. */
  function UserUrl(username: string): (url: string)
    ensures StartsWith(url, "https://www.tiktok.com/@") && url[|"https://www.tiktok.com/@"|..] == username
  {
    UPSTREAM + "/@" + username
  }

  /** The page of a video id. */
  function VideoUrl(videoId: string): (url: string)
    ensures StartsWith(url, "https://www.tiktok.com/video/") && url[|"https://www.tiktok.com/video/"|..] == videoId
  {
    UPSTREAM + "/video/" + videoId
  }

  /** The page of a hashtag. */
  function TagUrl(tagName: string): (url: string)
    ensures StartsWith(url, "https://www.tiktok.com/tag/") && url[|"https://www.tiktok.com/tag/"|..] == tagName
  {
    UPSTREAM + "/tag/" + tagName
  }

  /** Each builder is injective: different keys are fetched from different pages. */
  lemma UpstreamUrlsInjective(a: string, b: string)
    ensures UserUrl(a) == UserUrl(b) ==> a == b
    ensures VideoUrl(a) == VideoUrl(b) ==> a == b
    ensures TagUrl(a) == TagUrl(b) ==> a == b
  {
  }

  /** A profile, a video and a hashtag are never fetched from the same page: the three
      builders differ at the first character after the host's `/`. */
  lemma UpstreamUrlsDisjoint(a: string, b: string)
    ensures UserUrl(a) != VideoUrl(b) && UserUrl(a) != TagUrl(b) && VideoUrl(a) != TagUrl(b)
  {
    var n := |UPSTREAM| + 1;
    assert UserUrl(a)[n] == '@' && VideoUrl(b)[n] == 'v' && TagUrl(b)[n] == 't';
    assert VideoUrl(a)[n] == 'v';
  }

  /** The detail text of a failed status, `"Status: "` and the code (the reason phrase the
      HTTP library appends is not modelled). */
  function StatusDetail(s: StatusCode): string {
    "Status: " + NatToString(s)
  }

  /** The shared tail of `fetch_user`, `fetch_video` and `fetch_tag`: a send failure is a
      fetch error; 404 is `NotFound`, checked before the success test; any other non-2xx
      status is a fetch error; a 2xx whose body cannot be read is a fetch error; otherwise
      the page parser decides. */
  function Dispatch<T>(answer: Result<Response, string>, parsePage: string -> Result<T, AppError>): (r: Result<T, AppError>)
    ensures answer.Err? ==> r == Err(FetchError(answer.error))
    ensures answer.Ok? && answer.value.status == 404 ==> r == Err(NotFound)
    ensures answer.Ok? && answer.value.status != 404 && !IsSuccess(answer.value.status) ==>
      r == Err(FetchError(StatusDetail(answer.value.status)))
    ensures answer.Ok? && IsSuccess(answer.value.status) && answer.value.body.Err? ==>
      r == Err(FetchError(answer.value.body.error))
    ensures answer.Ok? && IsSuccess(answer.value.status) && answer.value.body.Ok? ==>
      r == parsePage(answer.value.body.value)
  {
    match answer
    case Err(e) => Err(FetchError(e))
    case Ok(resp) =>
      if resp.status == 404 then Err(NotFound)
      else if !IsSuccess(resp.status) then Err(FetchError(StatusDetail(resp.status)))
      else match resp.body
        case Err(e) => Err(FetchError(e))
        case Ok(html) => parsePage(html)
  }

  /** `fetch_user`. */
  function FetchUser(sc: Scanner, username: string, send: Transport): Result<UserInfo, AppError> {
    Dispatch(send(UserUrl(username)), html => ParseUserPage(sc, html, username))
  }

  /** `fetch_video`. */
  function FetchVideo(sc: Scanner, videoId: string, send: Transport): Result<VideoInfo, AppError> {
    Dispatch(send(VideoUrl(videoId)), html => ParseVideoPage(sc, html, videoId))
  }

  /** `fetch_tag`. */
  function FetchTag(sc: Scanner, tagName: string, send: Transport): Result<TagInfo, AppError> {
    Dispatch(send(TagUrl(tagName)), html => ParseTagPage(sc, html, tagName))
  }

  /** The outcome of a fetch: `NotFound` exactly on an upstream 404, a fetch error exactly
      on a send failure, a non-2xx status or an unreadable body, and otherwise always an
      entity (never a parse error, since the page parser degrades to a placeholder). */
  lemma FetchUserOutcome(sc: Scanner, username: string, send: Transport)
    ensures var a := send(UserUrl(username));
      FetchUser(sc, username, send) == Err(NotFound) <==> a.Ok? && a.value.status == 404
    ensures var a := send(UserUrl(username));
      FetchUser(sc, username, send).Err? && FetchUser(sc, username, send).error.FetchError? <==>
        a.Err? || (a.value.status != 404 && (!IsSuccess(a.value.status) || a.value.body.Err?))
    ensures var a := send(UserUrl(username));
      a.Ok? && IsSuccess(a.value.status) && a.value.body.Ok? ==>
        FetchUser(sc, username, send) == ParseUserPage(sc, a.value.body.value, username)
        && FetchUser(sc, username, send).Ok?
  {
  }

  /** As `FetchUserOutcome`, for videos: a 404 never yields a placeholder video. */
  lemma FetchVideoOutcome(sc: Scanner, videoId: string, send: Transport)
    ensures var a := send(VideoUrl(videoId));
      FetchVideo(sc, videoId, send) == Err(NotFound) <==> a.Ok? && a.value.status == 404
    ensures var a := send(VideoUrl(videoId));
      FetchVideo(sc, videoId, send).Err? && FetchVideo(sc, videoId, send).error.FetchError? <==>
        a.Err? || (a.value.status != 404 && (!IsSuccess(a.value.status) || a.value.body.Err?))
    ensures var a := send(VideoUrl(videoId));
      a.Ok? && IsSuccess(a.value.status) && a.value.body.Ok? ==>
        FetchVideo(sc, videoId, send) == ParseVideoPage(sc, a.value.body.value, videoId)
        && FetchVideo(sc, videoId, send).Ok?
  {
  }

  /** As `FetchUserOutcome`, for tags. */
  lemma FetchTagOutcome(sc: Scanner, tagName: string, send: Transport)
    ensures var a := send(TagUrl(tagName));
      FetchTag(sc, tagName, send) == Err(NotFound) <==> a.Ok? && a.value.status == 404
    ensures var a := send(TagUrl(tagName));
      FetchTag(sc, tagName, send).Err? && FetchTag(sc, tagName, send).error.FetchError? <==>
        a.Err? || (a.value.status != 404 && (!IsSuccess(a.value.status) || a.value.body.Err?))
    ensures var a := send(TagUrl(tagName));
      a.Ok? && IsSuccess(a.value.status) && a.value.body.Ok? ==>
        FetchTag(sc, tagName, send) == ParseTagPage(sc, a.value.body.value, tagName)
        && FetchTag(sc, tagName, send).Ok?
  {
  }

  /** A page with no recognisable state gives the placeholder video for the requested id. */
  lemma FetchVideoWithoutStateDegrades(sc: Scanner, videoId: string, send: Transport, html: string)
    requires send(VideoUrl(videoId)) == Ok(Response(200, Ok(html)))
    requires ExtractSigiState(sc, html).None?
    ensures FetchVideo(sc, videoId, send) == Ok(VideoPlaceholder(videoId))
  {
  }
}

=== FILE: errors.dfy ===
/** `AppError` (`src/error.rs`) and the HTTP status and error page each variant becomes. */
module Errors {
  import opened Numeric
  import opened Text

  /** The failures a handler can report. */
  datatype AppError =
    | NotFound
    | FetchError(detail: string)
    | ParseError
    | InvalidUrl
    | Internal

  /** The `Display` text of each variant. */
  function Message(e: AppError): (m: string)
    ensures e.NotFound? ==> m == "TikTok content not found"
    ensures e.FetchError? ==> StartsWith(m, "Failed to fetch from TikTok: ")
    ensures e.FetchError? ==> m[|"Failed to fetch from TikTok: "|..] == e.detail
    ensures e.ParseError? ==> m == "Failed to parse TikTok response"
    ensures e.InvalidUrl? ==> m == "Invalid URL format"
    ensures e.Internal? ==> m == "Internal server error"
  {
    match e
    case NotFound => "TikTok content not found"
    case FetchError(d) => "Failed to fetch from TikTok: " + d
    case ParseError => "Failed to parse TikTok response"
    case InvalidUrl => "Invalid URL format"
    case Internal => "Internal server error"
  }

  /** The text names the failure: different failures, or fetch failures with different
      details, never read the same. */
  lemma MessageInjective(a: AppError, b: AppError)
    ensures Message(a) == Message(b) ==> a == b
  {
    FetchMarker(a);
    FetchMarker(b);
    if a.FetchError? && b.FetchError? && Message(a) == Message(b) {
      assert a.detail == Message(a)[|"Failed to fetch from TikTok: "|..];
    }
  }

  /** Only a fetch failure's text has "f" as its eleventh character. */
  lemma FetchMarker(e: AppError)
    ensures e.FetchError? <==> |Message(e)| > 10 && Message(e)[10] == 'f'
  {
  }

  /** The status code `into_response` answers with. Only an upstream miss is a 404,
      only a rejected proxy target a 400, only an internal failure a 500; both upstream
      failures are a 502, and nothing is ever a success. */
  function Status(e: AppError): (s: StatusCode)
    ensures s == 404 <==> e.NotFound?
    ensures s == 502 <==> (e.FetchError? || e.ParseError?)
    ensures s == 400 <==> e.InvalidUrl?
    ensures s == 500 <==> e.Internal?
    ensures !IsSuccess(s) && 400 <= s < 600
  {
    match e
    case NotFound => 404
    case FetchError(_) => 502
    case ParseError => 502
    case InvalidUrl => 400
    case Internal => 500
  }

  /** The crying-cat emoji and space that open the page heading. */
  const HEADING_PREFIX: string := "\U{1F63F} "

  /** The response an error becomes: its status, the page heading (the emoji prefix then
      the decimal code), and the message shown under it (the HTML around them is not
      modelled). */
  datatype ErrorPage = ErrorPage(status: StatusCode, heading: string, message: string)

  /** `AppError::into_response`. After its emoji prefix the heading reads back as the
      response's own status. */
  function IntoResponse(e: AppError): (p: ErrorPage)
    ensures p.status == Status(e) && p.message == Message(e)
    ensures StartsWith(p.heading, HEADING_PREFIX)
    ensures var code := p.heading[|HEADING_PREFIX|..];
      AllAsciiDigits(code) && DigitsValue(code) == p.status
  {
    var s := Status(e);
    NatToStringRoundTrip(s);
    var heading := HEADING_PREFIX + NatToString(s);
    assert heading[|HEADING_PREFIX|..] == NatToString(s);
    ErrorPage(s, heading, Message(e))
  }
}

=== FILE: home.dfy ===
/** The search box of the home page (`src/routes/home.rs`): a query is classified by a
    chain of prefix, substring and digit tests into a redirect to a user, tag, video or
    short-link path, or the home page is rendered again. */
module Home {
  import opened Outcomes
  import opened Text
  import UrlEncoding

  /** What the home handler answers. `LocationRejected` is a redirect whose location the
      framework cannot put into a `Location` header: no redirect is sent and the request
      fails instead. */
  datatype HomeResponse =
    | Redirect(location: string)
    | LocationRejected(location: string)
    | HomePage(query: Option<string>)

  /** A character whose UTF-8 bytes a header value accepts: a tab, or bytes from 32 up
      other than 127. Every byte of a multi-byte sequence is at least 0x80. */
  predicate IsHeaderValueChar(c: char) {
    c == '\t' || (32 <= c as int && c as int != 127)
  }

  /** `Redirect::to(location)`: a redirect exactly when every character of the location
      can be carried by a header value. */
  function RedirectTo(location: string): (r: HomeResponse)
    ensures r.Redirect? || r.LocationRejected?
    ensures r.location == location
    ensures r.Redirect? <==> forall i | 0 <= i < |location| :: IsHeaderValueChar(location[i])
  {
    if forall i | 0 <= i < |location| :: IsHeaderValueChar(location[i]) then Redirect(location)
    else LocationRejected(location)
  }

  /** The first occurrence of `p` in `s` is at `i`. */
  ghost predicate FirstAt(s: string, p: string, i: nat) {
    OccursAt(s, p, i) && forall j: nat :: j < i ==> !OccursAt(s, p, j)
  }

  const SHORT_LINK_PREFIX: string := "/redirect?url="

  /** The profile branch: the text from `at` up to the first `?` after it. */
  function UserPath(url: string, at: nat): (path: string)
    requires OccursAt(url, "/@", at)
    ensures StartsWith(path, "/@") && '?' !in path && path[1] == '@'
    ensures StartsWith(url[at..], path) && (|path| == |url| - at || url[at + |path|] == '?')
  {
    var path := BeforeFirst(url[at..], '?');
    assert url[at..][..2] == "/@";
    assert url[at..][0] == '/' && url[at..][1] == '@';
    assert path[..2] == url[at..][..2];
    path
  }

  /** The video branch: `/video/` and the id after `pos + 7`, cut at `?` and then `/`. */
  function VideoPath(url: string, pos: nat): (path: string)
    requires pos + 7 <= |url|
    ensures StartsWith(path, "/video/") && path[1] == 'v'
    ensures var id := path[7..];
      && '?' !in id && '/' !in id
      && StartsWith(url[pos + 7..], id)
      && (|id| == |url| - pos - 7 || url[pos + 7 + |id|] in {'?', '/'})
  {
    var t := url[pos + 7..];
    var u := BeforeFirst(t, '?');
    var id := BeforeFirst(u, '/');
    var path := "/video/" + id;
    assert path[7..] == id;
    assert StartsWith(t, id) by {
      assert t[..|u|] == u;
      assert u[..|id|] == id;
    }
    assert |id| < |t| ==> url[pos + 7 + |id|] in {'?', '/'} by {
      if |id| < |t| {
        if |id| < |u| {
          assert u[|id|] == '/';
          assert t[|id|] == u[|id|];
        }
        assert url[pos + 7 + |id|] == t[|id|];
      }
    }
    path
  }

  /** The tag branch: `/tag/` and the text after `pos + 5` up to the first `?`. */
  function TagPath(url: string, pos: nat): (path: string)
    requires pos + 5 <= |url|
    ensures StartsWith(path, "/tag/") && path[1] == 't'
    ensures var tag := path[5..];
      && '?' !in tag && StartsWith(url[pos + 5..], tag)
      && (|tag| == |url| - pos - 5 || url[pos + 5 + |tag|] == '?')
  {
    var tag := BeforeFirst(url[pos + 5..], '?');
    assert ("/tag/" + tag)[5..] == tag;
    "/tag/" + tag
  }

  /** `parse_tiktok_url`. The markers are tested in a fixed order: `/@`, then `/video/`,
      then `vm.tiktok.com` or `/t/`, then `/tag/` or `/discover/`. */
  function ParseTikTokUrl(url: string): (r: Option<string>)
    ensures r.Some? ==> |r.value| >= 2 && r.value[0] == '/' && r.value[1] in {'@', 'v', 'r', 't'}
  {
    if Contains(url, "/@") then
      Some(UserPath(url, Find(url, "/@").value))
    else if Contains(url, "/video/") then
      Some(VideoPath(url, Find(url, "/video/").value))
    else if Contains(url, "vm.tiktok.com") || Contains(url, "/t/") then
      var link := SHORT_LINK_PREFIX + UrlEncoding.Encode(url);
      assert link[0] == '/' && link[1] == 'r';
      Some(link)
    else if Contains(url, "/tag/") || Contains(url, "/discover/") then
      match Find(url, "/tag/")
      case Some(pos) => Some(TagPath(url, pos))
      case None => None
    else None
  }

  /** The chain of tests `home` applies to the trimmed query: the redirect target, or
      `None` when the home page is rendered again. Every target is a same-origin path:
      a `/` followed by the `@`, `v`, `r` or `t` of a profile, video, short-link or tag
      path, never by `/` or `\`. */
  function Route(t: string): (r: Option<string>)
    ensures r.Some? ==> |r.value| >= 2 && r.value[0] == '/' && r.value[1] in {'@', 'v', 'r', 't'}
    ensures r.None? ==> !StartsWith(t, "@") && !StartsWith(t, "#") && Contains(t, "tiktok.com")
    ensures !StartsWith(t, "@") && !StartsWith(t, "#") && Contains(t, "tiktok.com") ==>
      r == ParseTikTokUrl(t)
  {
    if StartsWith(t, "@") then
      assert ("/" + t)[1] == t[0] == '@';
      Some("/" + t)
    else if StartsWith(t, "#") then
      assert ("/tag/" + t[1..])[1] == 't';
      Some("/tag/" + t[1..])
    else if Contains(t, "tiktok.com") then ParseTikTokUrl(t)
    else if AllAsciiDigits(t) then
      assert ("/video/" + t)[1] == 'v';
      Some("/video/" + t)
    else
      assert ("/@" + t)[1] == '@';
      Some("/@" + t)
  }

  /** `home`. A query is trimmed and routed; without a query, or when the query is not
      routed, the home page is rendered with the query exactly as given. A redirect is
      sent only when its location fits in a header; one holding a control character
      left inside the query by trimming is rejected. */
  function Answer(q: Option<string>): (r: HomeResponse)
    ensures r.HomePage? ==> r.query == q
    ensures !r.HomePage? ==>
      |r.location| >= 2 && r.location[0] == '/' && r.location[1] in {'@', 'v', 'r', 't'}
    ensures r.Redirect? ==> forall i | 0 <= i < |r.location| :: IsHeaderValueChar(r.location[i])
    ensures r.LocationRejected? ==> exists i | 0 <= i < |r.location| :: !IsHeaderValueChar(r.location[i])
  {
    match q
    case None => HomePage(None)
    case Some(raw) =>
      match Route(Trim(raw))
      case Some(location) => RedirectTo(location)
      case None => HomePage(q)
  }

  // ---------------------------------------------------------------- search box

  /** A query whose trimmed text starts with `@` redirects to `/` followed by that text;
      one starting with `#` redirects to the tag named by the rest. */
  lemma HomeSigils(raw: string)
    ensures var t := Trim(raw);
      StartsWith(t, "@") ==> Answer(Some(raw)) == RedirectTo("/" + t)
    ensures var t := Trim(raw);
      StartsWith(t, "#") ==> Answer(Some(raw)) == RedirectTo("/tag/" + t[1..])
  {
  }

  /** A query naming the platform's domain, without a sigil, that the URL parser places is
      answered with the parser's path, before the digit and handle tests are tried. */
  lemma HomePlacedUrl(raw: string)
    ensures var t := Trim(raw);
      (!StartsWith(t, "@") && !StartsWith(t, "#") && Contains(t, "tiktok.com")
       && ParseTikTokUrl(t).Some?) ==>
        Answer(Some(raw)) == RedirectTo(ParseTikTokUrl(t).value)
  {
  }

  /** A plain handle and the same handle behind `@` land on the same profile. */
  lemma HomeHandleForms(h: string)
    requires |h| > 0 && !IsWhitespace(h[0]) && !IsWhitespace(h[|h| - 1])
    requires !StartsWith(h, "@") && !StartsWith(h, "#")
    requires !Contains(h, "tiktok.com") && !AllAsciiDigits(h)
    ensures Answer(Some(h)) == RedirectTo("/@" + h)
    ensures Answer(Some("@" + h)) == RedirectTo("/@" + h)
  {
    var a := "@" + h;
    TrimOfTrimmed(h);
    assert Trim(a) == a by {
      assert a[0] == '@' && a[|a| - 1] == h[|h| - 1];
      TrimOfTrimmed(a);
    }
    assert Route(a) == Some("/@" + h) by {
      assert a[..1] == "@";
      assert "/" + a == "/@" + h;
    }
    assert Route(h) == Some("/@" + h);
  }

  /** Any query that trims to a handle, with no sigil, no domain and some non-digit, is
      answered as `Redirect::to` answers `/@` and the trimmed handle. */
  lemma HomeTrimmedHandle(raw: string)
    requires var t := Trim(raw);
      !StartsWith(t, "@") && !StartsWith(t, "#") && !Contains(t, "tiktok.com") && !AllAsciiDigits(t)
    ensures Answer(Some(raw)) == RedirectTo("/@" + Trim(raw))
  {
  }

  /** A handle with a control character inside it, such as a line feed that trimming
      leaves in place, is routed to a profile path that no header can carry. */
  lemma HomeControlCharRejected(h: string, i: nat)
    requires |h| > 0 && !IsWhitespace(h[0]) && !IsWhitespace(h[|h| - 1])
    requires !StartsWith(h, "@") && !StartsWith(h, "#")
    requires !Contains(h, "tiktok.com") && !AllAsciiDigits(h)
    requires i < |h| && !IsHeaderValueChar(h[i])
    ensures Answer(Some(h)) == LocationRejected("/@" + h)
  {
    HomeHandleForms(h);
    ProfileLocationRejected(h, i);
  }

  /** One character a header cannot carry rejects the profile path holding it. */
  lemma ProfileLocationRejected(h: string, i: nat)
    requires i < |h| && !IsHeaderValueChar(h[i])
    ensures RedirectTo("/@" + h) == LocationRejected("/@" + h)
  {
    var location := "/@" + h;
    assert location[i + 2] == h[i];
  }

  /** No digit string contains a pattern that has a non-digit in it. */
  lemma DigitsAvoid(d: string, p: string, k: nat)
    requires AllAsciiDigits(d)
    requires k < |p| && !('0' <= p[k] <= '9')
    ensures !Occurs(d, p)
  {
    assert p[k] !in d;
    AbsentCharAvoids(d, p, k);
  }

  /** A query that trims to a digit string, the empty one included, redirects to the video
      of that id: surrounding whitespace is dropped before the digit test. */
  lemma HomeDigits(raw: string)
    requires AllAsciiDigits(Trim(raw))
    ensures Answer(Some(raw)) == Redirect("/video/" + Trim(raw))
  {
    RouteDigits(Trim(raw));
    DigitsLocation(Trim(raw));
  }

  /** A video path with a numeric id is carried by a header unchanged. */
  lemma DigitsLocation(d: string)
    requires AllAsciiDigits(d)
    ensures RedirectTo("/video/" + d) == Redirect("/video/" + d)
  {
    var location := "/video/" + d;
    forall i | 0 <= i < |location| ensures IsHeaderValueChar(location[i]) {
      if i >= 7 {
        assert location[i] == d[i - 7];
      }
    }
  }

  lemma RouteDigits(d: string)
    requires AllAsciiDigits(d)
    ensures Route(d) == Some("/video/" + d)
  {
    DigitsAvoid(d, "tiktok.com", 0);
    assert !StartsWith(d, "@") && !StartsWith(d, "#") by {
      if |d| > 0 {
        assert '0' <= d[0] <= '9';
        assert d[..1] == [d[0]];
      }
    }
  }

  /** Because "all digits" holds of the empty string, a blank query redirects to `/video/`. */
  lemma HomeBlank(raw: string)
    requires Trim(raw) == ""
    ensures Answer(Some(raw)) == Redirect("/video/")
  {
    assert AllAsciiDigits("");
    RouteDigits("");
    DigitsLocation("");
    assert "/video/" + "" == "/video/";
  }

  /** A query naming the platform's domain that the URL parser cannot place renders the
      home page with the query as typed: it is not treated as a handle. */
  lemma HomeUnplacedUrl(raw: string)
    ensures var t := Trim(raw);
      Answer(Some(raw)) == HomePage(Some(raw)) <==>
        !StartsWith(t, "@") && !StartsWith(t, "#") && Contains(t, "tiktok.com")
        && ParseTikTokUrl(t).None?
    ensures Answer(Some(raw)).HomePage? ==> Answer(Some(raw)) == HomePage(Some(raw))
  {
  }

  // ---------------------------------------------------------------- URL parser

  /** `find` lands on the first occurrence. */
  lemma FindIsFirst(s: string, p: string, i: nat)
    requires FirstAt(s, p, i)
    ensures Find(s, p) == Some(i)
  {
    var k := Find(s, p).value;
    if k < i {
    } else if i < k {
    }
  }

  /** A URL with `/@` gives the text from its first `/@` up to, not including, the first
      `?` after it: a path that starts with `/@` and holds no `?`. */
  lemma ParseUserPathUrl(url: string, i: nat)
    requires FirstAt(url, "/@", i)
    ensures var r := ParseTikTokUrl(url);
      && r.Some? && StartsWith(r.value, "/@") && '?' !in r.value
      && StartsWith(url[i..], r.value)
      && (|r.value| == |url| - i || url[i + |r.value|] == '?')
  {
    FindIsFirst(url, "/@", i);
  }

  /** Without `/@`, a URL with `/video/` gives `/video/` and the id after the first
      `/video/`, cut at the first `?` and then at the first `/`: the id holds neither, and
      is followed in the URL by one of them or by the end. */
  lemma ParseVideoPathUrl(url: string, i: nat)
    requires !Contains(url, "/@") && FirstAt(url, "/video/", i)
    ensures var r := ParseTikTokUrl(url);
      && r.Some? && StartsWith(r.value, "/video/")
      && var id := r.value[7..];
      && '?' !in id && '/' !in id
      && StartsWith(url[i + 7..], id)
      && (|id| == |url| - i - 7 || url[i + 7 + |id|] in {'?', '/'})
  {
    FindIsFirst(url, "/video/", i);
  }

  /** Without `/@` or `/video/`, a short-link URL gives a `/redirect` path whose `url`
      query value decodes back to the URL. The service mounts no `/redirect` route, so
      this path reaches no handler (`Router.ShortLinkUnrouted`). */
  lemma ParseShortLinkUrl(url: string)
    requires !Contains(url, "/@") && !Contains(url, "/video/")
    requires Contains(url, "vm.tiktok.com") || Contains(url, "/t/")
    ensures var r := ParseTikTokUrl(url);
      && r.Some? && StartsWith(r.value, SHORT_LINK_PREFIX)
      && UrlEncoding.Decode(r.value[|SHORT_LINK_PREFIX|..]) == Some(url)
  {
    var r := SHORT_LINK_PREFIX + UrlEncoding.Encode(url);
    assert r[|SHORT_LINK_PREFIX|..] == UrlEncoding.Encode(url);
    UrlEncoding.DecodeEncode(url);
  }

  /** Otherwise a URL with `/tag/` gives `/tag/` and the text after its first `/tag/` up to
      the first `?`. */
  lemma ParseTagPathUrl(url: string, i: nat)
    requires !Contains(url, "/@") && !Contains(url, "/video/")
    requires !Contains(url, "vm.tiktok.com") && !Contains(url, "/t/")
    requires FirstAt(url, "/tag/", i)
    ensures var r := ParseTikTokUrl(url);
      && r.Some? && StartsWith(r.value, "/tag/")
      && var tag := r.value[5..];
      && '?' !in tag && StartsWith(url[i + 5..], tag)
      && (|tag| == |url| - i - 5 || url[i + 5 + |tag|] == '?')
  {
    FindIsFirst(url, "/tag/", i);
  }

  /** A URL with none of the markers, or a `/discover/` URL without `/tag/`, is not placed. */
  lemma ParseUnplacedUrl(url: string)
    requires !Contains(url, "/@") && !Contains(url, "/video/")
    requires !Contains(url, "vm.tiktok.com") && !Contains(url, "/t/")
    requires !Contains(url, "/tag/")
    ensures ParseTikTokUrl(url).None?
  {
  }
}

=== FILE: json.dfy ===
/** The part of `serde_json::Value` the resolvers use: the value tree, key lookup and the
    typed accessors `as_str`, `as_u64`, `as_i64` and `as_object`. */
module Json {
  import opened Outcomes
  import opened Numeric

  /** A JSON value. Integers are unbounded here; the accessors impose the source's widths.
      `JFloat` stands for every number with a fractional part or exponent, whose value
      never matters to the resolvers. An object keeps its entries in iteration order. */
  datatype Json =
    | JNull
    | JBool(b: bool)
    | JInt(n: int)
    | JFloat
    | JString(s: string)
    | JArray(items: seq<Json>)
    | JObject(fields: seq<(string, Json)>)

  /** Some entry of `fields` has key `key`. */
  ghost predicate HasKey(fields: seq<(string, Json)>, key: string) {
    exists i :: 0 <= i < |fields| && fields[i].0 == key
  }

  /** The value of the first entry with key `key`. */
  function Lookup(fields: seq<(string, Json)>, key: string): (r: Option<Json>)
    ensures r.Some? <==> HasKey(fields, key)
    ensures r.Some? ==> exists i :: (0 <= i < |fields| && fields[i] == (key, r.value)
      && forall j :: 0 <= j < i ==> fields[j].0 != key)
  {
    if |fields| == 0 then None
    else if fields[0].0 == key then Some(fields[0].1)
    else
      var r := Lookup(fields[1..], key);
      assert HasKey(fields, key) ==> HasKey(fields[1..], key) by {
        if HasKey(fields, key) {
          var i :| 0 <= i < |fields| && fields[i].0 == key;
          assert fields[1..][i - 1].0 == key;
        }
      }
      assert r.Some? ==> exists i :: (0 <= i < |fields| && fields[i] == (key, r.value)
          && forall j :: 0 <= j < i ==> fields[j].0 != key) by {
        if r.Some? {
          var i :| (0 <= i < |fields[1..]| && fields[1..][i] == (key, r.value)
            && forall j :: 0 <= j < i ==> fields[1..][j].0 != key);
          assert fields[i + 1] == (key, r.value);
          forall j | 0 <= j < i + 1 ensures fields[j].0 != key {
            if j > 0 {
              assert fields[j] == fields[1..][j - 1];
            }
          }
        }
      }
      r
  }

  /** `Value::get(key)`: present only on an object that has the key, whatever its value
      (a `null` value included), and then the value of the first entry with that key. */
  function Get(v: Json, key: string): (r: Option<Json>)
    ensures r.Some? <==> v.JObject? && HasKey(v.fields, key)
    ensures r.Some? ==> exists i :: (0 <= i < |v.fields| && v.fields[i] == (key, r.value)
      && forall j :: 0 <= j < i ==> v.fields[j].0 != key)
  {
    if v.JObject? then Lookup(v.fields, key) else None
  }

  /** Successive `get`s along `path`. */
  function Dig(v: Json, path: seq<string>): Option<Json> {
    if |path| == 0 then Some(v)
    else match Get(v, path[0])
      case None => None
      case Some(child) => Dig(child, path[1..])
  }

  /** `Value::as_str`: only strings. */
  function AsStr(v: Json): (r: Option<string>)
    ensures r.Some? <==> v.JString?
    ensures r.Some? ==> r.value == v.s
  {
    if v.JString? then Some(v.s) else None
  }

  /** `Value::as_u64`: only integers in `0 .. 2^64`. */
  function AsU64(v: Json): (r: Option<u64>)
    ensures r.Some? <==> v.JInt? && 0 <= v.n < U64_LIMIT
    ensures r.Some? ==> r.value == v.n
  {
    if v.JInt? && 0 <= v.n < U64_LIMIT then Some(v.n) else None
  }

  /** `Value::as_i64`: only integers in `-2^63 .. 2^63`. */
  function AsI64(v: Json): (r: Option<i64>)
    ensures r.Some? <==> v.JInt? && I64_MIN <= v.n < I64_LIMIT
    ensures r.Some? ==> r.value == v.n
  {
    if v.JInt? && I64_MIN <= v.n < I64_LIMIT then Some(v.n) else None
  }

  /** `Value::as_object`: only objects. */
  function AsObject(v: Json): (r: Option<seq<(string, Json)>>)
    ensures r.Some? <==> v.JObject?
  {
    if v.JObject? then Some(v.fields) else None
  }

  /** `v.get(key).unwrap_or(&Value::Null)`. */
  function GetOrNull(v: Json, key: string): Json {
    Get(v, key).GetOr(JNull)
  }

  /** The key holds a string. */
  ghost predicate HasStringAt(v: Json, key: string) {
    Get(v, key).Some? && Get(v, key).value.JString?
  }

  /** The key holds an integer that fits `u64`. */
  ghost predicate HasU64At(v: Json, key: string) {
    Get(v, key).Some? && Get(v, key).value.JInt? && 0 <= Get(v, key).value.n < U64_LIMIT
  }

  /** The key holds an integer that fits `i64`. */
  ghost predicate HasI64At(v: Json, key: string) {
    Get(v, key).Some? && Get(v, key).value.JInt? && I64_MIN <= Get(v, key).value.n < I64_LIMIT
  }

  /** Reference reading of a string field with a default: the string stored under `key`,
      or `default` when the key is missing or holds anything but a string. */
  ghost function StringOr(v: Json, key: string, default: string): string {
    if HasStringAt(v, key) then Get(v, key).value.s else default
  }

  /** Reference reading of a counter: the integer stored under `key`, or 0 when the key is
      missing, holds a non-integer, or an integer outside `u64`. */
  ghost function U64OrZero(v: Json, key: string): int {
    if HasU64At(v, key) then Get(v, key).value.n else 0
  }

  /** Reference reading of a timestamp: as `U64OrZero`, for the `i64` range. */
  ghost function I64OrZero(v: Json, key: string): int {
    if HasI64At(v, key) then Get(v, key).value.n else 0
  }

  /** `v.get(key).and_then(|x| x.as_str())`. */
  function StrField(v: Json, key: string): (r: Option<string>)
    ensures r.Some? <==> HasStringAt(v, key)
    ensures r.Some? ==> r.value == Get(v, key).value.s
  {
    match Get(v, key)
    case Some(x) => AsStr(x)
    case None => None
  }

  /** `v.get(key).and_then(|x| x.as_u64())`. */
  function U64Field(v: Json, key: string): (r: Option<u64>)
    ensures r.Some? <==> HasU64At(v, key)
    ensures r.Some? ==> r.value == Get(v, key).value.n
  {
    match Get(v, key)
    case Some(x) => AsU64(x)
    case None => None
  }

  /** `v.get(key).and_then(|x| x.as_i64())`. */
  function I64Field(v: Json, key: string): (r: Option<i64>)
    ensures r.Some? <==> HasI64At(v, key)
    ensures r.Some? ==> r.value == Get(v, key).value.n
  {
    match Get(v, key)
    case Some(x) => AsI64(x)
    case None => None
  }

  /** `get` reaches an entry whose value is `null`: presence is about the key, not the value. */
  lemma GetSeesNull(key: string)
    ensures Get(JObject([(key, JNull)]), key) == Some(JNull)
    ensures Get(JNull, key) == None
  {
  }
}

=== FILE: numeric.dfy ===
/** The fixed-width integer types of the source, as ranges of unbounded integers. */
module Numeric {

  const U64_LIMIT: int := 0x1_0000_0000_0000_0000
  const I64_MIN: int := -0x8000_0000_0000_0000
  const I64_LIMIT: int := 0x8000_0000_0000_0000

  /** Rust's `u64`. */
  type u64 = n: int | 0 <= n < U64_LIMIT

  /** Rust's `i64`. */
  type i64 = n: int | I64_MIN <= n < I64_LIMIT

  /** Rust's `u8`, the unit of UTF-8 text. */
  type byte = n: int | 0 <= n < 256

  /** An HTTP status code as the `http` crate admits it (three digits). */
  type StatusCode = n: int | 100 <= n < 1000 witness 200

  /** `StatusCode::is_success`: the 2xx range. */
  predicate IsSuccess(s: StatusCode) {
    200 <= s < 300
  }
}

=== FILE: outcomes.dfy ===
/** Optional values and results with an error side, shared by every module of the model. */
module Outcomes {

  /** A value that may be missing (Rust's `Option`). */
  datatype Option<+T> = None | Some(value: T) {

    /** The wrapped value, or `default` when there is none (`unwrap_or`). */
    function GetOr(default: T): T {
      match this
      case Some(v) => v
      case None => default
    }

    /** This value when present, otherwise `other` (`or_else`). */
    function OrElse(other: Option<T>): Option<T> {
      match this
      case Some(_) => this
      case None => other
    }
  }

  /** The outcome of an operation that can fail with an error of type `E`. */
  datatype Result<+T, +E> = Ok(value: T) | Err(error: E)
}

=== FILE: parser.dfy ===
/** Embedded-state extraction, the three schema resolvers and the degrade-to-placeholder
    page parsers of `src/tiktok/parser.rs`. */
module Parser {
  import opened Outcomes
  import opened Numeric
  import opened Text
  import opened Json
  import opened Types
  import opened Errors

  // ================================================================ state extraction

  /** The two script-tag conventions, in the order they are tried: `id="SIGI_STATE"`,
      then `id="__UNIVERSAL_DATA_FOR_REHYDRATION__"`. */
  datatype Convention = SigiState | UniversalData

  /** What the capture group `([^<]+)` can yield: non-empty text without `<`. */
  type TagPayload = s: string | |s| > 0 && '<' !in s witness "{}"

  /** What the lazy group `(.*?)` of `<script[^>]*>(.*?)</script>` can capture: without
      the dot-all flag `.` never matches a line feed, so a capture holds none. */
  type ScriptBody = s: string | '\n' !in s witness ""

  /** The text-level collaborators of extraction, left uninterpreted: the first capture of
      a convention's pattern in a page; the successive captures of the generic script
      pattern, in page order, each the text from a `<script ...>` tag up to the nearest
      `</script>` with no line feed between them, so that a script body spanning several
      lines is never captured; and the JSON text parser. */
  datatype Scanner = Scanner(
    capture: (Convention, string) -> Option<TagPayload>,
    scriptBodies: string -> seq<ScriptBody>,
    parse: string -> Option<Json>)

  const USER_MODULE_MARKER: string := "\"UserModule\""
  const ITEM_MODULE_MARKER: string := "\"ItemModule\""

  /** The generic scan only considers a script body that names one of the two legacy modules. */
  predicate HasStateMarker(body: string) {
    Contains(body, USER_MODULE_MARKER) || Contains(body, ITEM_MODULE_MARKER)
  }

  /** Tries each convention in turn; a capture that does not parse moves on to the next. */
  function TryConventions(sc: Scanner, html: string, cs: seq<Convention>): Option<Json> {
    if |cs| == 0 then None
    else match sc.capture(cs[0], html)
      case Some(payload) =>
        (match sc.parse(payload)
         case Some(j) => Some(j)
         case None => TryConventions(sc, html, cs[1..]))
      case None => TryConventions(sc, html, cs[1..])
  }

  /** The first marked script body that parses. */
  function ScanScripts(parse: string -> Option<Json>, bodies: seq<string>): Option<Json> {
    if |bodies| == 0 then None
    else if HasStateMarker(bodies[0]) && parse(bodies[0]).Some? then parse(bodies[0])
    else ScanScripts(parse, bodies[1..])
  }

  /** `extract_sigi_state`. */
  function ExtractSigiState(sc: Scanner, html: string): Option<Json> {
    match TryConventions(sc, html, [SigiState, UniversalData])
    case Some(j) => Some(j)
    case None => ScanScripts(sc.parse, sc.scriptBodies(html))
  }

  // ---------------------------------------------------------------- its reference reading

  /** The payloads the conventions capture, in order. */
  ghost function ConventionPayloads(sc: Scanner, html: string, cs: seq<Convention>): seq<string> {
    if |cs| == 0 then []
    else
      (match sc.capture(cs[0], html)
       case Some(p) => [p]
       case None => [])
      + ConventionPayloads(sc, html, cs[1..])
  }

  /** The script bodies that carry a marker, in document order. */
  ghost function MarkedBodies(bodies: seq<string>): seq<string> {
    if |bodies| == 0 then []
    else (if HasStateMarker(bodies[0]) then [bodies[0]] else []) + MarkedBodies(bodies[1..])
  }

  /** Every text extraction may hand to the parser, in the order it tries them. */
  ghost function Candidates(sc: Scanner, html: string): seq<string> {
    ConventionPayloads(sc, html, [SigiState, UniversalData]) + MarkedBodies(sc.scriptBodies(html))
  }

  /** `r` is what parsing the first parseable candidate gives, or `None` if none parses. */
  ghost predicate FirstParsed(parse: string -> Option<Json>, cands: seq<string>, r: Option<Json>) {
    && (r.None? <==> forall i :: 0 <= i < |cands| ==> parse(cands[i]).None?)
    && (r.Some? ==> exists i :: 0 <= i < |cands| && parse(cands[i]) == r
                               && forall k :: 0 <= k < i ==> parse(cands[k]).None?)
  }

  lemma FirstParsedCons(parse: string -> Option<Json>, c: string, rest: seq<string>, r: Option<Json>)
    requires parse(c).None? && FirstParsed(parse, rest, r)
    ensures FirstParsed(parse, [c] + rest, r)
  {
    var cands := [c] + rest;
    assert forall i :: 1 <= i < |cands| ==> cands[i] == rest[i - 1];
    if r.Some? {
      var i :| 0 <= i < |rest| && parse(rest[i]) == r && forall k :: 0 <= k < i ==> parse(rest[k]).None?;
      assert parse(cands[i + 1]) == r;
    }
  }

  lemma FirstParsedHead(parse: string -> Option<Json>, c: string, rest: seq<string>)
    requires parse(c).Some?
    ensures FirstParsed(parse, [c] + rest, parse(c))
  {
    assert ([c] + rest)[0] == c;
  }

  lemma FirstParsedAppend(parse: string -> Option<Json>, a: seq<string>, b: seq<string>, r: Option<Json>)
    requires forall i :: 0 <= i < |a| ==> parse(a[i]).None?
    requires FirstParsed(parse, b, r)
    ensures FirstParsed(parse, a + b, r)
    decreases |a|
  {
    if |a| > 0 {
      FirstParsedAppend(parse, a[1..], b, r);
      assert a + b == [a[0]] + (a[1..] + b);
      FirstParsedCons(parse, a[0], a[1..] + b, r);
    } else {
      assert a + b == b;
    }
  }

  lemma FirstParsedPrefix(parse: string -> Option<Json>, a: seq<string>, b: seq<string>, r: Option<Json>)
    requires r.Some? && FirstParsed(parse, a, r)
    ensures FirstParsed(parse, a + b, r)
  {
    var i :| 0 <= i < |a| && parse(a[i]) == r && forall k :: 0 <= k < i ==> parse(a[k]).None?;
    assert (a + b)[i] == a[i];
    assert forall k :: 0 <= k < i ==> (a + b)[k] == a[k];
  }

  lemma {:induction false} TryConventionsFirstParsed(sc: Scanner, html: string, cs: seq<Convention>)
    ensures FirstParsed(sc.parse, ConventionPayloads(sc, html, cs), TryConventions(sc, html, cs))
    decreases |cs|
  {
    if |cs| > 0 {
      TryConventionsFirstParsed(sc, html, cs[1..]);
      var rest := ConventionPayloads(sc, html, cs[1..]);
      match sc.capture(cs[0], html)
      case Some(p) =>
        assert ConventionPayloads(sc, html, cs) == [p] + rest;
        if sc.parse(p).Some? {
          FirstParsedHead(sc.parse, p, rest);
        } else {
          FirstParsedCons(sc.parse, p, rest, TryConventions(sc, html, cs[1..]));
        }
      case None =>
        assert ConventionPayloads(sc, html, cs) == rest;
    }
  }

  lemma {:induction false} ScanScriptsFirstParsed(parse: string -> Option<Json>, bodies: seq<string>)
    ensures FirstParsed(parse, MarkedBodies(bodies), ScanScripts(parse, bodies))
    decreases |bodies|
  {
    if |bodies| > 0 {
      ScanScriptsFirstParsed(parse, bodies[1..]);
      var rest := MarkedBodies(bodies[1..]);
      if HasStateMarker(bodies[0]) {
        assert MarkedBodies(bodies) == [bodies[0]] + rest;
        if parse(bodies[0]).Some? {
          FirstParsedHead(parse, bodies[0], rest);
        } else {
          FirstParsedCons(parse, bodies[0], rest, ScanScripts(parse, bodies[1..]));
        }
      } else {
        assert MarkedBodies(bodies) == rest;
      }
    }
  }

  /** Extraction is a first-success search: the result is the parse of the first candidate
      that parses, where the candidates are the SIGI_STATE capture, then the rehydration
      capture, then every script body naming `"UserModule"` or `"ItemModule"`; and it is
      `None` exactly when no candidate parses. */
  lemma ExtractIsFirstSuccess(sc: Scanner, html: string)
    ensures FirstParsed(sc.parse, Candidates(sc, html), ExtractSigiState(sc, html))
  {
    var known := ConventionPayloads(sc, html, [SigiState, UniversalData]);
    var marked := MarkedBodies(sc.scriptBodies(html));
    TryConventionsFirstParsed(sc, html, [SigiState, UniversalData]);
    ScanScriptsFirstParsed(sc.parse, sc.scriptBodies(html));
    match TryConventions(sc, html, [SigiState, UniversalData])
    case Some(j) =>
      FirstParsedPrefix(sc.parse, known, marked, Some(j));
    case None =>
      FirstParsedAppend(sc.parse, known, marked, ScanScripts(sc.parse, sc.scriptBodies(html)));
  }

  /** A parseable SIGI_STATE payload wins over everything else on the page. */
  lemma ExtractPrefersSigiState(sc: Scanner, html: string, p: TagPayload)
    requires sc.capture(SigiState, html) == Some(p) && sc.parse(p).Some?
    ensures ExtractSigiState(sc, html) == sc.parse(p)
  {
  }

  /** An unparseable SIGI_STATE payload does not abort: the rehydration payload is tried next. */
  lemma ExtractSkipsUnparseable(sc: Scanner, html: string, p: TagPayload, q: TagPayload)
    requires sc.capture(SigiState, html) == Some(p) && sc.parse(p).None?
    requires sc.capture(UniversalData, html) == Some(q) && sc.parse(q).Some?
    ensures ExtractSigiState(sc, html) == sc.parse(q)
  {
    assert [SigiState, UniversalData][1..] == [UniversalData];
    assert TryConventions(sc, html, [UniversalData]) == sc.parse(q);
  }

  /** The generic scan only ever returns the parse of a marked, single-line script body. */
  lemma ScanScriptsSingleLine(sc: Scanner, html: string)
    ensures var bodies := sc.scriptBodies(html);
      ScanScripts(sc.parse, bodies).Some? ==>
        exists i :: 0 <= i < |bodies| && '\n' !in bodies[i] && HasStateMarker(bodies[i])
          && sc.parse(bodies[i]) == ScanScripts(sc.parse, bodies)
  {
    ScanScriptsNeedsMarker(sc.parse, sc.scriptBodies(html));
  }

  /** Whatever the generic scan returns comes from a script body carrying a marker. */
  lemma {:induction false} ScanScriptsNeedsMarker(parse: string -> Option<Json>, bodies: seq<string>)
    ensures ScanScripts(parse, bodies).Some? ==>
      exists i :: 0 <= i < |bodies| && HasStateMarker(bodies[i]) && parse(bodies[i]) == ScanScripts(parse, bodies)
    decreases |bodies|
  {
    if |bodies| > 0 && !(HasStateMarker(bodies[0]) && parse(bodies[0]).Some?) {
      ScanScriptsNeedsMarker(parse, bodies[1..]);
      if ScanScripts(parse, bodies).Some? {
        var i :| 0 <= i < |bodies[1..]| && HasStateMarker(bodies[1..][i])
                 && parse(bodies[1..][i]) == ScanScripts(parse, bodies[1..]);
        assert bodies[i + 1] == bodies[1..][i];
      }
    }
  }

  // ================================================================ user resolution

  /** The identity fields both user shapes share: id, handle, display name and bio. */
  ghost predicate IdentityFrom(u: UserInfo, user: Json, username: string) {
    && u.id == StringOr(user, "id", "")
    && u.username == StringOr(user, "uniqueId", username)
    && u.nickname == StringOr(user, "nickname", username)
    && u.bio == StringOr(user, "signature", "")
  }

  /** `parse_user_info_object`: the newer `userInfo` shape. */
  function ParseUserInfoObject(userInfo: Json, username: string): (r: Option<UserInfo>)
    ensures r.Some? <==> Get(userInfo, "user").Some?
    ensures r.Some? ==>
      var user := Get(userInfo, "user").value;
      var stats := GetOrNull(userInfo, "stats");
      && IdentityFrom(r.value, user, username)
      && r.value.avatarUrl == (if HasStringAt(user, "avatarLarger") then Get(user, "avatarLarger").value.s
                               else StringOr(user, "avatarMedium", ""))
      && r.value.followerCount == U64OrZero(stats, "followerCount")
      && r.value.followingCount == U64OrZero(stats, "followingCount")
      && r.value.likeCount == (if HasU64At(stats, "heartCount") then Get(stats, "heartCount").value.n
                               else U64OrZero(stats, "heart"))
      && r.value.videoCount == U64OrZero(stats, "videoCount")
      && r.value.videos == []
    ensures r.Some? && Get(userInfo, "stats").None? ==>
      r.value.followerCount == r.value.followingCount == r.value.likeCount == r.value.videoCount == 0
  {
    match Get(userInfo, "user")
    case None => None
    case Some(user) =>
      var stats := GetOrNull(userInfo, "stats");
      Some(UserInfo(
        id := StrField(user, "id").GetOr(""),
        username := StrField(user, "uniqueId").GetOr(username),
        nickname := StrField(user, "nickname").GetOr(username),
        bio := StrField(user, "signature").GetOr(""),
        avatarUrl := StrField(user, "avatarLarger").OrElse(StrField(user, "avatarMedium")).GetOr(""),
        followerCount := U64Field(stats, "followerCount").GetOr(0),
        followingCount := U64Field(stats, "followingCount").GetOr(0),
        likeCount := U64Field(stats, "heartCount").OrElse(U64Field(stats, "heart")).GetOr(0),
        videoCount := U64Field(stats, "videoCount").GetOr(0),
        videos := []))
  }

  /** `parse_legacy_user_object`: the older `UserModule` shape, whose counters sit in a
      parallel `stats` table keyed by the requested handle. Only `avatarLarger` and only
      `heartCount` are read: there is no fallback field. */
  function ParseLegacyUserObject(user: Json, username: string, json: Json): (r: Option<UserInfo>)
    ensures r.Some? <==> Dig(json, ["UserModule", "stats", username]).Some?
    ensures r.Some? ==>
      var stats := Dig(json, ["UserModule", "stats", username]).value;
      && IdentityFrom(r.value, user, username)
      && r.value.avatarUrl == StringOr(user, "avatarLarger", "")
      && r.value.followerCount == U64OrZero(stats, "followerCount")
      && r.value.followingCount == U64OrZero(stats, "followingCount")
      && r.value.likeCount == U64OrZero(stats, "heartCount")
      && r.value.videoCount == U64OrZero(stats, "videoCount")
      && r.value.videos == []
  {
    var statsTable := match Get(json, "UserModule")
      case Some(m) => Get(m, "stats")
      case None => None;
    var stats := match statsTable
      case Some(t) => Get(t, username)
      case None => None;
    assert stats == Dig(json, ["UserModule", "stats", username]) by {
      DigThree(json, "UserModule", "stats", username);
    }
    match stats
    case None => None
    case Some(stats) =>
      Some(UserInfo(
        id := StrField(user, "id").GetOr(""),
        username := StrField(user, "uniqueId").GetOr(username),
        nickname := StrField(user, "nickname").GetOr(username),
        bio := StrField(user, "signature").GetOr(""),
        avatarUrl := StrField(user, "avatarLarger").GetOr(""),
        followerCount := U64Field(stats, "followerCount").GetOr(0),
        followingCount := U64Field(stats, "followingCount").GetOr(0),
        likeCount := U64Field(stats, "heartCount").GetOr(0),
        videoCount := U64Field(stats, "videoCount").GetOr(0),
        videos := []))
  }

  /** `parse_user_from_json`. A document reaching `__DEFAULT_SCOPE__` →
      `webapp.user-detail` → `userInfo` commits to that object: its mapping is the result,
      and if it lacks `"user"` the result is `None` without looking at `UserModule`.
      Otherwise the legacy shape answers, and needs both `UserModule.users[username]`
      and `UserModule.stats[username]`. */
  function ParseUserFromJson(json: Json, username: string): (r: Option<UserInfo>)
    ensures var ui := Dig(json, ["__DEFAULT_SCOPE__", "webapp.user-detail", "userInfo"]);
      ui.Some? ==> r == ParseUserInfoObject(ui.value, username)
                   && (r.Some? <==> Get(ui.value, "user").Some?)
    ensures var ui := Dig(json, ["__DEFAULT_SCOPE__", "webapp.user-detail", "userInfo"]);
      var user := Dig(json, ["UserModule", "users", username]);
      ui.None? ==> (r.Some? <==> user.Some? && Dig(json, ["UserModule", "stats", username]).Some?)
                   && (user.Some? ==> r == ParseLegacyUserObject(user.value, username, json))
    ensures r.Some? ==> r.value.videos == []
  {
    var userInfo :=
      match Get(json, "__DEFAULT_SCOPE__")
      case None => None
      case Some(scope) =>
        match Get(scope, "webapp.user-detail")
        case None => None
        case Some(detail) => Get(detail, "userInfo");
    var user :=
      match Get(json, "UserModule")
      case None => None
      case Some(userModule) =>
        match Get(userModule, "users")
        case None => None
        case Some(users) => Get(users, username);
    assert userInfo == Dig(json, ["__DEFAULT_SCOPE__", "webapp.user-detail", "userInfo"]) by {
      DigThree(json, "__DEFAULT_SCOPE__", "webapp.user-detail", "userInfo");
    }
    assert user == Dig(json, ["UserModule", "users", username]) by {
      DigThree(json, "UserModule", "users", username);
    }
    match userInfo
    case Some(ui) => ParseUserInfoObject(ui, username)
    case None =>
      match user
      case Some(u) => ParseLegacyUserObject(u, username, json)
      case None => None
  }

  /** A three-key path is three successive lookups. */
  lemma DigThree(v: Json, a: string, b: string, c: string)
    ensures Dig(v, [a, b, c]) ==
      match Get(v, a)
      case None => None
      case Some(x) =>
        match Get(x, b)
        case None => None
        case Some(y) => Get(y, c)
  {
    assert [a, b, c][1..] == [b, c];
    match Get(v, a)
    case None =>
    case Some(x) =>
      assert Dig(v, [a, b, c]) == Dig(x, [b, c]);
      DigTwo(x, b, c);
  }

  /** A four-key path is four successive lookups. */
  lemma DigFour(v: Json, a: string, b: string, c: string, d: string)
    ensures Dig(v, [a, b, c, d]) ==
      match Get(v, a)
      case None => None
      case Some(x) =>
        match Get(x, b)
        case None => None
        case Some(y) =>
          match Get(y, c)
          case None => None
          case Some(z) => Get(z, d)
  {
    assert [a, b, c, d][1..] == [b, c, d];
    match Get(v, a)
    case None =>
    case Some(x) => DigThree(x, b, c, d);
  }

  /** A two-key path is two successive lookups. */
  lemma DigTwo(v: Json, a: string, b: string)
    ensures Dig(v, [a, b]) ==
      match Get(v, a)
      case None => None
      case Some(x) => Get(x, b)
  {
    assert [a, b][1..] == [b];
    match Get(v, a)
    case None =>
    case Some(x) =>
      assert Dig(v, [a, b]) == Dig(x, [b]);
      assert [b][1..] == [];
      match Get(x, b)
      case None =>
      case Some(y) =>
        assert Dig(x, [b]) == Dig(y, []);
  }

  // ================================================================ video resolution

  /** `parse_video_item`: maps an item object to a video; it never fails. A present
      `playAddr` (resp. `cover`) key wins even when its value is not a string, which then
      reads as the empty URL; only an absent key lets the next alternative in. The music
      fields are absent exactly when `music` or its string field is. */
  function ParseVideoItem(item: Json): (r: Option<VideoInfo>)
    ensures r.Some?
    ensures r.value.videoUrl == MediaUrl(GetOrNull(item, "video"))
    ensures r.value.thumbnailUrl == ThumbnailUrl(GetOrNull(item, "video"))
    ensures var author := GetOrNull(item, "author");
      && r.value.id == StringOr(item, "id", "")
      && r.value.description == StringOr(item, "desc", "")
      && r.value.authorUsername == StringOr(author, "uniqueId", "unknown")
      && r.value.authorNickname == StringOr(author, "nickname", "Unknown")
      && r.value.authorAvatar == StringOr(author, "avatarMedium", "")
    ensures var stats := GetOrNull(item, "stats");
      && r.value.likeCount == U64OrZero(stats, "diggCount")
      && r.value.commentCount == U64OrZero(stats, "commentCount")
      && r.value.shareCount == U64OrZero(stats, "shareCount")
      && r.value.viewCount == U64OrZero(stats, "playCount")
      && r.value.createTime == I64OrZero(item, "createTime")
    ensures r.value.musicTitle == MusicField(Get(item, "music"), "title")
    ensures r.value.musicAuthor == MusicField(Get(item, "music"), "authorName")
  {
    var author := GetOrNull(item, "author");
    var stats := GetOrNull(item, "stats");
    var video := GetOrNull(item, "video");
    var music := Get(item, "music");
    Some(VideoInfo(
      id := StrField(item, "id").GetOr(""),
      description := StrField(item, "desc").GetOr(""),
      authorUsername := StrField(author, "uniqueId").GetOr("unknown"),
      authorNickname := StrField(author, "nickname").GetOr("Unknown"),
      authorAvatar := StrField(author, "avatarMedium").GetOr(""),
      videoUrl := MediaUrl(video),
      thumbnailUrl := ThumbnailUrl(video),
      likeCount := U64Field(stats, "diggCount").GetOr(0),
      commentCount := U64Field(stats, "commentCount").GetOr(0),
      shareCount := U64Field(stats, "shareCount").GetOr(0),
      viewCount := U64Field(stats, "playCount").GetOr(0),
      createTime := I64Field(item, "createTime").GetOr(0),
      musicTitle := MusicField(music, "title"),
      musicAuthor := MusicField(music, "authorName")))
  }

  /** The video's media URL: a present `playAddr` key wins even when its value is not a
      string (then the URL is empty); only without it does `downloadAddr` count. */
  function MediaUrl(video: Json): (url: string)
    ensures Get(video, "playAddr").Some? ==> url == StringOr(video, "playAddr", "")
    ensures Get(video, "playAddr").None? ==> url == StringOr(video, "downloadAddr", "")
  {
    PresentStr(Get(video, "playAddr").OrElse(Get(video, "downloadAddr")))
  }

  /** The thumbnail URL, by the same present-key-wins rule over `cover`, `originCover`,
      `dynamicCover`. */
  function ThumbnailUrl(video: Json): (url: string)
    ensures Get(video, "cover").Some? ==> url == StringOr(video, "cover", "")
    ensures Get(video, "cover").None? && Get(video, "originCover").Some? ==>
      url == StringOr(video, "originCover", "")
    ensures Get(video, "cover").None? && Get(video, "originCover").None? ==>
      url == StringOr(video, "dynamicCover", "")
  {
    PresentStr(Get(video, "cover").OrElse(Get(video, "originCover")).OrElse(Get(video, "dynamicCover")))
  }

  /** A music field: absent when `music` is, or when its field is missing or not a string. */
  function MusicField(music: Option<Json>, key: string): (r: Option<string>)
    ensures r.Some? <==> music.Some? && HasStringAt(music.value, key)
    ensures r.Some? ==> r.value == Get(music.value, key).value.s
  {
    match music
    case Some(m) => StrField(m, key)
    case None => None
  }

  /** `.and_then(|v| v.as_str()).unwrap_or("")` on an already chosen value. */
  function PresentStr(v: Option<Json>): string {
    match v
    case Some(JString(s)) => s
    case _ => ""
  }

  /** `ItemModule` is an object with at least one entry. */
  ghost predicate ItemModuleNonEmpty(json: Json) {
    Get(json, "ItemModule").Some? && Get(json, "ItemModule").value.JObject?
    && |Get(json, "ItemModule").value.fields| > 0
  }

  /** `parse_video_from_json`. The `itemStruct` of the newer shape wins; otherwise
      `ItemModule[video_id]`; otherwise the first entry of a non-empty `ItemModule`, even
      when it holds several items. A video is found exactly when one of those exists. */
  function ParseVideoFromJson(json: Json, videoId: string): (r: Option<VideoInfo>)
    ensures r.Some? <==>
      Dig(json, ["__DEFAULT_SCOPE__", "webapp.video-detail", "itemInfo", "itemStruct"]).Some?
      || Dig(json, ["ItemModule", videoId]).Some?
      || ItemModuleNonEmpty(json)
    ensures var s := Dig(json, ["__DEFAULT_SCOPE__", "webapp.video-detail", "itemInfo", "itemStruct"]);
      s.Some? ==> r == ParseVideoItem(s.value)
    ensures var s := Dig(json, ["__DEFAULT_SCOPE__", "webapp.video-detail", "itemInfo", "itemStruct"]);
      var keyed := Dig(json, ["ItemModule", videoId]);
      s.None? && keyed.Some? ==> r == ParseVideoItem(keyed.value)
    ensures var s := Dig(json, ["__DEFAULT_SCOPE__", "webapp.video-detail", "itemInfo", "itemStruct"]);
      s.None? && Dig(json, ["ItemModule", videoId]).None? && ItemModuleNonEmpty(json) ==>
        r == ParseVideoItem(Get(json, "ItemModule").value.fields[0].1)
  {
    var itemStruct :=
      match Get(json, "__DEFAULT_SCOPE__")
      case None => None
      case Some(scope) =>
        match Get(scope, "webapp.video-detail")
        case None => None
        case Some(detail) =>
          match Get(detail, "itemInfo")
          case None => None
          case Some(itemInfo) => Get(itemInfo, "itemStruct");
    assert itemStruct == Dig(json, ["__DEFAULT_SCOPE__", "webapp.video-detail", "itemInfo", "itemStruct"]) by {
      DigFour(json, "__DEFAULT_SCOPE__", "webapp.video-detail", "itemInfo", "itemStruct");
    }
    DigTwo(json, "ItemModule", videoId);
    match itemStruct
    case Some(s) => ParseVideoItem(s)
    case None =>
      match Get(json, "ItemModule")
      case None => None
      case Some(itemModule) =>
        match Get(itemModule, videoId)
        case Some(item) => ParseVideoItem(item)
        case None =>
          match AsObject(itemModule)
          case Some(items) =>
            if |items| > 0 then ParseVideoItem(items[0].1) else None
          case None => None
  }

  // ================================================================ tag resolution

  /** The tag built from a `challengeInfo` object whose `challenge` exists. */
  function TagFromChallengeInfo(challengeInfo: Json, tagName: string): (r: Option<TagInfo>)
    ensures r.Some? <==> Get(challengeInfo, "challenge").Some?
    ensures r.Some? ==>
      && r.value.name == StringOr(Get(challengeInfo, "challenge").value, "title", tagName)
      && r.value.viewCount == U64OrZero(GetOrNull(challengeInfo, "stats"), "viewCount")
      && r.value.videos == []
  {
    match Get(challengeInfo, "challenge")
    case None => None
    case Some(challenge) =>
      var stats := GetOrNull(challengeInfo, "stats");
      Some(TagInfo(
        name := StrField(challenge, "title").GetOr(tagName),
        viewCount := U64Field(stats, "viewCount").GetOr(0),
        videos := []))
  }

  /** `parse_tag_from_json`. A document with `__DEFAULT_SCOPE__` →
      `webapp.challenge-detail` commits to it: a missing `challengeInfo` or `challenge`
      there gives `None` without trying `ChallengePage`. Likewise
      `ChallengePage.challengeInfo` without `challenge` gives `None`. */
  function ParseTagFromJson(json: Json, tagName: string): (r: Option<TagInfo>)
    ensures var detail := Dig(json, ["__DEFAULT_SCOPE__", "webapp.challenge-detail"]);
      detail.Some? ==>
        && (r.Some? <==> Dig(detail.value, ["challengeInfo", "challenge"]).Some?)
        && (r.Some? ==> Get(detail.value, "challengeInfo").Some?
                        && r == TagFromChallengeInfo(Get(detail.value, "challengeInfo").value, tagName))
    ensures var detail := Dig(json, ["__DEFAULT_SCOPE__", "webapp.challenge-detail"]);
      var page := Dig(json, ["ChallengePage", "challengeInfo"]);
      detail.None? ==>
        && (r.Some? <==> Dig(json, ["ChallengePage", "challengeInfo", "challenge"]).Some?)
        && (r.Some? ==> page.Some? && r == TagFromChallengeInfo(page.value, tagName))
    ensures r.Some? ==> r.value.videos == []
  {
    var detail :=
      match Get(json, "__DEFAULT_SCOPE__")
      case None => None
      case Some(scope) => Get(scope, "webapp.challenge-detail");
    var page :=
      match Get(json, "ChallengePage")
      case None => None
      case Some(challengePage) => Get(challengePage, "challengeInfo");
    DigTwo(json, "__DEFAULT_SCOPE__", "webapp.challenge-detail");
    DigTwo(json, "ChallengePage", "challengeInfo");
    DigThree(json, "ChallengePage", "challengeInfo", "challenge");
    match detail
    case Some(d) =>
      DigTwo(d, "challengeInfo", "challenge");
      (match Get(d, "challengeInfo")
       case None => None
       case Some(challengeInfo) => TagFromChallengeInfo(challengeInfo, tagName))
    case None =>
      match page
      case Some(challengeInfo) => TagFromChallengeInfo(challengeInfo, tagName)
      case None => None
  }

  // ================================================================ pages with fallback

  const USER_FALLBACK_BIO: string :=
    "Profile information could not be loaded. TikTok may have changed their page structure."
  const VIDEO_FALLBACK_DESCRIPTION: string := "Video information could not be loaded."

  /** The placeholder profile: only the requested handle is echoed. */
  function UserPlaceholder(username: string): UserInfo {
    UserInfo("unknown", username, username, USER_FALLBACK_BIO, "", 0, 0, 0, 0, [])
  }

  /** The placeholder video: only the requested id is echoed. */
  function VideoPlaceholder(videoId: string): VideoInfo {
    VideoInfo(videoId, VIDEO_FALLBACK_DESCRIPTION, "unknown", "Unknown", "", "", "",
              0, 0, 0, 0, 0, None, None)
  }

  /** The placeholder tag: only the requested name is echoed. */
  function TagPlaceholder(tagName: string): TagInfo {
    TagInfo(tagName, 0, [])
  }

  /** `parse_user_page`: never an error. A resolved profile is returned as resolved; any
      miss (nothing extracted, or no shape matched) gives the placeholder with id
      `"unknown"`, handle and display name equal to the requested key, the fixed bio
      note, no avatar and zero counters. */
  function ParseUserPage(sc: Scanner, html: string, username: string): (r: Result<UserInfo, AppError>)
    ensures r.Ok? && r.value.videos == []
    ensures var doc := ExtractSigiState(sc, html);
      doc.Some? && ParseUserFromJson(doc.value, username).Some? ==>
        r.value == ParseUserFromJson(doc.value, username).value
    ensures var doc := ExtractSigiState(sc, html);
      doc.None? || ParseUserFromJson(doc.value, username).None? ==>
        && r.value.id == "unknown" && r.value.username == username && r.value.nickname == username
        && r.value.bio == USER_FALLBACK_BIO && r.value.avatarUrl == ""
        && r.value.followerCount == r.value.followingCount == r.value.likeCount == r.value.videoCount == 0
  {
    match ExtractSigiState(sc, html)
    case Some(json) =>
      (match ParseUserFromJson(json, username)
       case Some(u) => Ok(u)
       case None => Ok(UserPlaceholder(username)))
    case None => Ok(UserPlaceholder(username))
  }

  /** `parse_video_page`: never an error; any miss gives the placeholder video whose id is
      the requested id, with the fixed description note, author `"unknown"`/`"Unknown"`,
      no author avatar, empty media links, zero counters and no music. */
  function ParseVideoPage(sc: Scanner, html: string, videoId: string): (r: Result<VideoInfo, AppError>)
    ensures r.Ok?
    ensures var doc := ExtractSigiState(sc, html);
      doc.Some? && ParseVideoFromJson(doc.value, videoId).Some? ==>
        r.value == ParseVideoFromJson(doc.value, videoId).value
    ensures var doc := ExtractSigiState(sc, html);
      doc.None? || ParseVideoFromJson(doc.value, videoId).None? ==>
        && r.value.id == videoId && r.value.description == VIDEO_FALLBACK_DESCRIPTION
        && r.value.authorUsername == "unknown" && r.value.authorNickname == "Unknown"
        && r.value.authorAvatar == "" && r.value.videoUrl == "" && r.value.thumbnailUrl == ""
        && r.value.likeCount == r.value.commentCount == r.value.shareCount == r.value.viewCount == 0
        && r.value.createTime == 0
        && r.value.musicTitle.None? && r.value.musicAuthor.None?
  {
    match ExtractSigiState(sc, html)
    case Some(json) =>
      (match ParseVideoFromJson(json, videoId)
       case Some(v) => Ok(v)
       case None => Ok(VideoPlaceholder(videoId)))
    case None => Ok(VideoPlaceholder(videoId))
  }

  /** `parse_tag_page`: never an error; any miss gives the tag named by the request key
      with a zero view count. */
  function ParseTagPage(sc: Scanner, html: string, tagName: string): (r: Result<TagInfo, AppError>)
    ensures r.Ok? && r.value.videos == []
    ensures var doc := ExtractSigiState(sc, html);
      doc.Some? && ParseTagFromJson(doc.value, tagName).Some? ==>
        r.value == ParseTagFromJson(doc.value, tagName).value
    ensures var doc := ExtractSigiState(sc, html);
      doc.None? || ParseTagFromJson(doc.value, tagName).None? ==>
        r.value.name == tagName && r.value.viewCount == 0
  {
    match ExtractSigiState(sc, html)
    case Some(json) =>
      (match ParseTagFromJson(json, tagName)
       case Some(t) => Ok(t)
       case None => Ok(TagPlaceholder(tagName)))
    case None => Ok(TagPlaceholder(tagName))
  }
}

=== FILE: proxy.dfy ===
/** The media proxy (`src/routes/proxy.rs`): the allow-list of CDN domains and the order
    in which `proxy_media` decodes, checks, fetches and answers. The fetch is a parameter
    and the streamed body is not modelled. */
module Proxy {
  import opened Outcomes
  import opened Numeric
  import opened Text
  import opened Errors
  import UrlEncoding

  /** The CDN domains media may be fetched from. */
  const ALLOWED_DOMAINS: seq<string> := [
    "tiktokcdn.com",
    "tiktokcdn-us.com",
    "tiktokv.com",
    "muscdn.com",
    "byteoversea.com",
    "ibytedtos.com",
    "tiktokcdn-in.com"
  ]

  /** Some allowed domain occurs in `url`: the reference meaning of the allow-list. */
  ghost predicate MentionsAllowedDomain(url: string) {
    exists i :: 0 <= i < |ALLOWED_DOMAINS| && Occurs(url, ALLOWED_DOMAINS[i])
  }

  /** `domains.iter().any(|d| url.contains(d))` over a list of domains. */
  function AnyContained(url: string, domains: seq<string>): (b: bool)
    ensures b <==> exists i :: 0 <= i < |domains| && Occurs(url, domains[i])
  {
    if |domains| == 0 then false
    else if Contains(url, domains[0]) then true
    else
      var b := AnyContained(url, domains[1..]);
      assert b ==> exists i :: 0 <= i < |domains| && Occurs(url, domains[i]) by {
        if b {
          var i :| 0 <= i < |domains[1..]| && Occurs(url, domains[1..][i]);
          assert Occurs(url, domains[i + 1]);
        }
      }
      assert (exists i :: 0 <= i < |domains| && Occurs(url, domains[i])) ==> b by {
        if exists i :: 0 <= i < |domains| && Occurs(url, domains[i]) {
          var i :| 0 <= i < |domains| && Occurs(url, domains[i]);
          assert i > 0 && Occurs(url, domains[1..][i - 1]);
        }
      }
      b
  }

  /** `is_allowed_url`: a plain substring test, not a host check. */
  function IsAllowedUrl(url: string): (b: bool)
    ensures b <==> MentionsAllowedDomain(url)
  {
    AnyContained(url, ALLOWED_DOMAINS)
  }

  /** An allowed URL stays allowed whatever text is put before or after it. */
  lemma AllowedInContext(a: string, url: string, b: string)
    requires IsAllowedUrl(url)
    ensures IsAllowedUrl(a + url + b)
  {
    var i :| 0 <= i < |ALLOWED_DOMAINS| && Occurs(url, ALLOWED_DOMAINS[i]);
    OccursInContext(a, url, b, ALLOWED_DOMAINS[i]);
  }

  /** The empty URL is not allowed. */
  lemma EmptyNotAllowed()
    ensures !IsAllowedUrl("")
  {
    forall i | 0 <= i < |ALLOWED_DOMAINS| ensures !Occurs("", ALLOWED_DOMAINS[i]) {
      NothingOccursInEmpty(ALLOWED_DOMAINS[i]);
    }
  }

  /** A domain named anywhere in the URL, here in the query of another host, is enough. */
  lemma AllowedAnywhere()
    ensures IsAllowedUrl("https://evil.example/?x=tiktokcdn.com")
  {
    var url := "https://evil.example/?x=tiktokcdn.com";
    assert url[24..][..13] == "tiktokcdn.com";
    assert OccursAt(url, ALLOWED_DOMAINS[0], 24);
  }

  /** Every allowed domain has a `k`, a `u` or a `y` in it, so a URL with none of those
      letters is refused. */
  lemma RefusedWithoutMarkerLetters(url: string)
    requires 'k' !in url && 'u' !in url && 'y' !in url
    ensures !IsAllowedUrl(url)
  {
    AbsentCharAvoids(url, "tiktokcdn.com", 2);
    AbsentCharAvoids(url, "tiktokcdn-us.com", 2);
    AbsentCharAvoids(url, "tiktokv.com", 2);
    AbsentCharAvoids(url, "muscdn.com", 1);
    AbsentCharAvoids(url, "byteoversea.com", 1);
    AbsentCharAvoids(url, "ibytedtos.com", 2);
    AbsentCharAvoids(url, "tiktokcdn-in.com", 2);
  }

  /** A URL naming none of the domains is refused. */
  lemma RefusedElsewhere()
    ensures !IsAllowedUrl("https://example.org/")
  {
    RefusedWithoutMarkerLetters("https://example.org/");
  }

  // ---------------------------------------------------------------- proxy_media

  /** What the upstream answered for a media GET: its status and the raw bytes of its
      `Content-Type` header, if it sent one. */
  datatype MediaResponse = MediaResponse(status: StatusCode, contentType: Option<seq<byte>>)

  /** The media fetch: an answer, or the transport's error text. */
  type MediaFetch = string -> Result<MediaResponse, string>

  /** The headers of a successful proxy reply (its body is the upstream stream). */
  datatype MediaReply = MediaReply(status: StatusCode, contentType: string, cacheControl: string)

  /** What the handler did: the URL it fetched, if it fetched at all, and its answer. */
  datatype ProxyOutcome = ProxyOutcome(fetched: Option<string>, result: Result<MediaReply, AppError>)

  const DEFAULT_CONTENT_TYPE: string := "application/octet-stream"
  const MEDIA_CACHE_CONTROL: string := "public, max-age=86400"

  /** `HeaderValue::to_str` accepts a byte exactly when it is a tab or visible ASCII. */
  predicate IsHeaderTextByte(b: byte) {
    b == 9 || 32 <= b < 127
  }

  /** `HeaderValue::to_str`: the header as text when every byte is acceptable. */
  function HeaderText(bs: seq<byte>): (r: Option<string>)
    ensures r.Some? <==> forall i | 0 <= i < |bs| :: IsHeaderTextByte(bs[i])
    ensures r.Some? ==> |r.value| == |bs| && forall i | 0 <= i < |bs| :: r.value[i] as int == bs[i]
  {
    if forall i | 0 <= i < |bs| :: IsHeaderTextByte(bs[i]) then
      Some(seq(|bs|, i requires 0 <= i < |bs| => bs[i] as char))
    else None
  }

  /** The content type forwarded: the upstream header when it reads as text, otherwise
      the generic binary type. */
  function ForwardedContentType(header: Option<seq<byte>>): (ct: string)
    ensures header.Some? && HeaderText(header.value).Some? ==> ct == HeaderText(header.value).value
    ensures header.None? || HeaderText(header.value).None? ==> ct == DEFAULT_CONTENT_TYPE
  {
    match header
    case None => DEFAULT_CONTENT_TYPE
    case Some(bs) => HeaderText(bs).GetOr(DEFAULT_CONTENT_TYPE)
  }

  /** What `proxy_media` does with a URL once it has text to check (proxy.rs:26-60): the
      allow-list, the fetch, the status test, then a 200 reply with the one-day cache.
      Handed the query value the framework has already decoded, this is the handler as
      evidently intended, decoding the link exactly once. */
  function ProxyMediaOnce(url: string, fetch: MediaFetch): (o: ProxyOutcome)
    ensures o.fetched.Some? <==> IsAllowedUrl(url)
    ensures o.fetched.Some? ==> o.fetched.value == url
    ensures o.fetched.None? ==> o.result == Err(InvalidUrl)
    ensures o.result.Ok? ==>
      o.result.value.status == 200 && o.result.value.cacheControl == MEDIA_CACHE_CONTROL
  {
    if !IsAllowedUrl(url) then ProxyOutcome(None, Err(InvalidUrl))
    else match fetch(url)
      case Err(e) => ProxyOutcome(Some(url), Err(FetchError(e)))
      case Ok(resp) =>
        if !IsSuccess(resp.status) then ProxyOutcome(Some(url), Err(NotFound))
        else ProxyOutcome(Some(url), Ok(MediaReply(200, ForwardedContentType(resp.contentType), MEDIA_CACHE_CONTROL)))
  }

  /** `proxy_media` as written, given the `url` query value as the framework hands it over,
      that is already decoded once: the handler decodes it a second time (proxy.rs:21-23)
      before checking and fetching. */
  function ProxyMedia(urlParam: string, fetch: MediaFetch): (o: ProxyOutcome)
    ensures o.result.Ok? ==>
      o.result.value.status == 200 && o.result.value.cacheControl == MEDIA_CACHE_CONTROL
    ensures UrlEncoding.Decode(urlParam).None? ==> o == ProxyOutcome(None, Err(InvalidUrl))
  {
    match UrlEncoding.Decode(urlParam)
    case None => ProxyOutcome(None, Err(InvalidUrl))
    case Some(url) => ProxyMediaOnce(url, fetch)
  }

  /** Validation comes first: a fetch is issued exactly when the parameter decodes to an
      allowed URL, and it is for that URL; otherwise the answer is `InvalidUrl`. */
  lemma ProxyValidatesBeforeFetch(urlParam: string, fetch: MediaFetch)
    ensures var o := ProxyMedia(urlParam, fetch);
      var d := UrlEncoding.Decode(urlParam);
      (o.fetched.Some? <==> d.Some? && IsAllowedUrl(d.value))
      && (o.fetched.Some? ==> o.fetched.value == d.value)
      && (o.fetched.None? ==> o.result == Err(InvalidUrl))
  {
  }

  /** Once fetched, a transport failure is a fetch error, any non-2xx status is
      `NotFound`, and a 2xx is a 200 reply with the forwarded content type and a one-day
      public cache. */
  lemma ProxyAnswers(urlParam: string, fetch: MediaFetch)
    ensures var o := ProxyMedia(urlParam, fetch);
      o.fetched.Some? ==>
        var a := fetch(o.fetched.value);
        && (a.Err? <==> o.result.Err? && o.result.error.FetchError?)
        && (a.Err? ==> o.result == Err(FetchError(a.error)))
        && (a.Ok? && !IsSuccess(a.value.status) <==> o.result == Err(NotFound))
        && (a.Ok? && IsSuccess(a.value.status) <==> o.result.Ok?)
        && (o.result.Ok? ==>
              o.result.value == MediaReply(200, ForwardedContentType(a.value.contentType), MEDIA_CACHE_CONTROL))
  {
  }

  /** As written, the link built for an allowed media URL that carries an escaped plus
      sign makes the handler fetch a different URL: the framework turns the link's query
      value back into the media URL, and the handler's own `decode` then turns its `%2B`
      into `+`. */
  lemma ProxyLinkDecodedTwice(pre: string, fetch: MediaFetch)
    requires '%' !in pre && IsAllowedUrl(pre)
    ensures var mediaUrl := pre + "%2B";
      var received := UrlEncoding.FormDecode(UrlEncoding.Encode(mediaUrl));
      && received == Some(mediaUrl)
      && ProxyMedia(received.value, fetch).fetched == Some(pre + "+")
      && ProxyMedia(received.value, fetch).fetched != Some(mediaUrl)
  {
    var mediaUrl := pre + "%2B";
    UrlEncoding.FormDecodeEncode(mediaUrl);
    UrlEncoding.DecodeEscapedPlus(pre);
    AllowedInContext("", pre, "+");
    assert "" + pre + "+" == pre + "+";
    assert (pre + "+")[|pre|] != (pre + "%2B")[|pre|];
  }

  /** Decoding once, the link built for an allowed media URL is fetched as exactly that
      URL, whatever it contains. */
  lemma ProxyOnceRoundTrip(mediaUrl: string, fetch: MediaFetch)
    requires IsAllowedUrl(mediaUrl)
    ensures var received := UrlEncoding.FormDecode(UrlEncoding.Encode(mediaUrl));
      && received == Some(mediaUrl)
      && ProxyMediaOnce(received.value, fetch).fetched == Some(mediaUrl)
  {
    UrlEncoding.FormDecodeEncode(mediaUrl);
  }
}

=== FILE: router.dfy ===
/** The service's router (`src/routes/mod.rs`, merging the routes each handler file
    mounts): which handler the path of a request reaches. */
module Router {
  import opened Outcomes
  import opened Text
  import UrlEncoding
  import Home

  /** The five routes and what each captures from the path. */
  datatype Handler =
    | HomeHandler
    | UserHandler(username: string)
    | VideoHandler(videoId: string)
    | TagHandler(tagName: string)
    | ProxyHandler

  /** What a route parameter captures: one non-empty path segment. */
  predicate IsSegment(s: string) {
    |s| > 0 && '/' !in s
  }

  /** The captures of a handler are all path segments. */
  predicate WellCaptured(h: Handler) {
    match h
    case UserHandler(u) => IsSegment(u)
    case VideoHandler(v) => IsSegment(v)
    case TagHandler(t) => IsSegment(t)
    case _ => true
  }

  /** The path a route pattern stands for once its parameter is filled in. */
  function RoutePath(h: Handler): (p: string)
    ensures |p| >= 1 && p[0] == '/'
  {
    match h
    case HomeHandler => "/"
    case UserHandler(u) => "/@" + u
    case VideoHandler(v) => "/video/" + v
    case TagHandler(t) => "/tag/" + t
    case ProxyHandler => "/proxy"
  }

  /** The path of a request target: the text before its query. */
  function PathOf(target: string): (p: string)
    ensures StartsWith(target, p) && '?' !in p
    ensures |p| < |target| ==> target[|p|] == '?'
  {
    BeforeFirst(target, '?')
  }

  /** The handler a path reaches, if any: `/`, `/@{username}`, `/video/{video_id}`,
      `/tag/{tag_name}` or `/proxy`. */
  function Match(path: string): (h: Option<Handler>)
    ensures h.Some? ==> RoutePath(h.value) == path && WellCaptured(h.value)
  {
    if path == "/" then Some(HomeHandler)
    else if path == "/proxy" then Some(ProxyHandler)
    else if StartsWith(path, "/@") && IsSegment(path[2..]) then
      assert path == "/@" + path[2..];
      Some(UserHandler(path[2..]))
    else if StartsWith(path, "/video/") && IsSegment(path[7..]) then
      assert path == "/video/" + path[7..];
      Some(VideoHandler(path[7..]))
    else if StartsWith(path, "/tag/") && IsSegment(path[5..]) then
      assert path == "/tag/" + path[5..];
      Some(TagHandler(path[5..]))
    else None
  }

  /** Every route's path reaches that route with the same captures. */
  lemma MatchRoutePath(h: Handler)
    requires WellCaptured(h)
    ensures Match(RoutePath(h)) == Some(h)
  {
    var p := RoutePath(h);
    match h
    case HomeHandler =>
    case ProxyHandler =>
    case UserHandler(u) =>
      assert p[1] == '@' && p[2..] == u;
    case VideoHandler(v) =>
      assert p[1] == 'v' && p[..2] != "/@" && p[7..] == v;
    case TagHandler(t) =>
      assert p[1] == 't' && p[..2] != "/@" && p[..5] == "/tag/" && p[5..] == t;
      assert |p| < 7 || p[..7] != "/video/";
  }

  /** The short-link path the home page builds has path `/redirect`, which no route
      matches: following that redirect reaches no handler. */
  lemma ShortLinkUnrouted(url: string)
    requires !Contains(url, "/@") && !Contains(url, "/video/")
    requires Contains(url, "vm.tiktok.com") || Contains(url, "/t/")
    ensures var r := Home.ParseTikTokUrl(url);
      r.Some? && PathOf(r.value) == "/redirect" && Match(PathOf(r.value)) == None
  {
    Home.ParseShortLinkUrl(url);
    ShortLinkTargetUnrouted(Home.ParseTikTokUrl(url).value);
  }

  /** Any target behind the short-link prefix has path `/redirect` and no handler. */
  lemma ShortLinkTargetUnrouted(target: string)
    requires StartsWith(target, Home.SHORT_LINK_PREFIX)
    ensures PathOf(target) == "/redirect" && Match(PathOf(target)) == None
  {
    var prefix := Home.SHORT_LINK_PREFIX;
    assert target[9] == prefix[9] == '?';
    assert target[..9] == prefix[..9] == "/redirect";
    BeforeFirstAt(target, '?', 9);
    RedirectUnmatched();
  }

  /** `/redirect` is none of the five route paths. */
  lemma RedirectUnmatched()
    ensures Match("/redirect") == None
  {
    var p := "/redirect";
    assert p[..2][1] == 'r' && p[..5][1] == 'r' && p[..7][1] == 'r';
  }

  /** A handle without `/` or `?` redirected to `/@` reaches the profile handler with
      that handle as its capture. */
  lemma ProfileRouted(h: string)
    requires IsSegment(h) && '?' !in h
    ensures Match(PathOf("/@" + h)) == Some(UserHandler(h))
  {
    BeforeFirstAbsent("/@" + h, '?');
    MatchRoutePath(UserHandler(h));
  }
}

=== FILE: routes.dfy ===
/** The profile and hashtag handlers (`src/routes/user.rs`, `src/routes/tag.rs`): the path
    segment loses its leading sigils and the rest is fetched. Rendering the page from the
    entity is not modelled. */
module Routes {
  import opened Outcomes
  import opened Text
  import opened Types
  import opened Errors
  import opened Parser
  import opened Client

  /** `username.trim_start_matches('@')`: the segment with its whole leading run of `@`
      removed and the rest untouched. */
  function NormalizeUsername(segment: string): (h: string)
    ensures h == [] || h[0] != '@'
    ensures |h| <= |segment| && h == segment[|segment| - |h|..]
    ensures forall i | 0 <= i < |segment| - |h| :: segment[i] == '@'
  {
    TrimStartMatches(segment, '@')
  }

  /** `tag_name.trim_start_matches('#')`, as `NormalizeUsername` for `#`. */
  function NormalizeTagName(segment: string): (t: string)
    ensures t == [] || t[0] != '#'
    ensures |t| <= |segment| && t == segment[|segment| - |t|..]
    ensures forall i | 0 <= i < |segment| - |t| :: segment[i] == '#'
  {
    TrimStartMatches(segment, '#')
  }

  /** Normalising a handle twice is normalising it once, and a segment without a
      leading `@` is its own normal form. */
  lemma NormalizeUsernameIdempotent(segment: string)
    ensures NormalizeUsername(NormalizeUsername(segment)) == NormalizeUsername(segment)
    ensures segment == [] || segment[0] != '@' ==> NormalizeUsername(segment) == segment
  {
    TrimStartMatchesIdempotent(segment, '@');
    if segment == [] || segment[0] != '@' {
      TrimStartMatchesIdentity(segment, '@');
    }
  }

  /** As `NormalizeUsernameIdempotent`, for tag names and `#`. */
  lemma NormalizeTagNameIdempotent(segment: string)
    ensures NormalizeTagName(NormalizeTagName(segment)) == NormalizeTagName(segment)
    ensures segment == [] || segment[0] != '#' ==> NormalizeTagName(segment) == segment
  {
    TrimStartMatchesIdempotent(segment, '#');
    if segment == [] || segment[0] != '#' {
      TrimStartMatchesIdentity(segment, '#');
    }
  }

  /** `get_user` up to rendering: the profile of the normalised handle. */
  function GetUser(sc: Scanner, segment: string, send: Transport): (r: Result<UserInfo, AppError>)
    ensures r.Err? ==> r.error.NotFound? || r.error.FetchError?
  {
    var username := NormalizeUsername(segment);
    FetchUserOutcome(sc, username, send);
    FetchUser(sc, username, send)
  }

  /** `get_tag` up to rendering: the hashtag page of the normalised name. */
  function GetTag(sc: Scanner, segment: string, send: Transport): (r: Result<TagInfo, AppError>)
    ensures r.Err? ==> r.error.NotFound? || r.error.FetchError?
  {
    var tagName := NormalizeTagName(segment);
    FetchTagOutcome(sc, tagName, send);
    FetchTag(sc, tagName, send)
  }

  /** `@@h`, `@h` and `h` are the same profile: all three fetch the upstream page of `h`. */
  lemma UserSigilForms(sc: Scanner, h: string, send: Transport)
    requires h == [] || h[0] != '@'
    ensures NormalizeUsername("@@" + h) == NormalizeUsername("@" + h) == NormalizeUsername(h) == h
    ensures UserUrl(NormalizeUsername("@@" + h)) == "https://www.tiktok.com/@" + h
    ensures GetUser(sc, "@@" + h, send) == GetUser(sc, "@" + h, send) == GetUser(sc, h, send)
  {
    TrimStartMatchesRuns(h, '@');
  }

  /** `##t`, `#t` and `t` are the same hashtag: all three fetch the upstream page of `t`. */
  lemma TagSigilForms(sc: Scanner, t: string, send: Transport)
    requires t == [] || t[0] != '#'
    ensures NormalizeTagName("##" + t) == NormalizeTagName("#" + t) == NormalizeTagName(t) == t
    ensures TagUrl(NormalizeTagName("##" + t)) == "https://www.tiktok.com/tag/" + t
    ensures GetTag(sc, "##" + t, send) == GetTag(sc, "#" + t, send) == GetTag(sc, t, send)
  {
    TrimStartMatchesRuns(t, '#');
  }
}

=== FILE: text.dfy ===
/** String primitives of Rust's `str` that the handlers rely on: prefix and substring
    tests, `find`, `split(c).next()`, trimming, digit tests and decimal rendering. */
module Text {
  import opened Outcomes

  /** `p` is a prefix of `s` (`str::starts_with`). */
  predicate StartsWith(s: string, p: string) {
    |p| <= |s| && s[..|p|] == p
  }

  /** `p` occurs in `s` at index `i`. */
  predicate OccursAt(s: string, p: string, i: nat) {
    i <= |s| && StartsWith(s[i..], p)
  }

  /** `p` occurs somewhere in `s`: the reference meaning of `str::contains`. */
  ghost predicate Occurs(s: string, p: string) {
    exists i: nat :: OccursAt(s, p, i)
  }

  lemma OccursAtShift(s: string, p: string, i: nat)
    requires 0 < |s|
    ensures OccursAt(s, p, i + 1) <==> OccursAt(s[1..], p, i)
  {
    if i + 1 <= |s| {
      assert s[i + 1..] == s[1..][i..];
    }
  }

  /** Index of the first occurrence of `p` in `s` (`str::find`). */
  function Find(s: string, p: string): (r: Option<nat>)
    ensures r.Some? ==> OccursAt(s, p, r.value)
    ensures r.Some? ==> forall j: nat :: j < r.value ==> !OccursAt(s, p, j)
    ensures r.None? <==> !Occurs(s, p)
    decreases |s|
  {
    if StartsWith(s, p) then
      assert OccursAt(s, p, 0) by { assert s[0..] == s; }
      Some(0)
    else if |s| == 0 then
      assert forall i: nat :: !OccursAt(s, p, i);
      None
    else
      var rest := Find(s[1..], p);
      assert !OccursAt(s, p, 0) by { assert s[0..] == s; }
      forall i: nat ensures OccursAt(s, p, i + 1) <==> OccursAt(s[1..], p, i) {
        OccursAtShift(s, p, i);
      }
      match rest
      case None =>
        assert forall i: nat :: !OccursAt(s, p, i) by {
          forall i: nat ensures !OccursAt(s, p, i) {
            if i > 0 {
              assert !OccursAt(s[1..], p, i - 1);
            }
          }
        }
        None
      case Some(k) =>
        assert forall j: nat :: j < k + 1 ==> !OccursAt(s, p, j) by {
          forall j: nat | j < k + 1 ensures !OccursAt(s, p, j) {
            if j > 0 {
              assert !OccursAt(s[1..], p, j - 1);
            }
          }
        }
        Some(k + 1)
  }

  /** `str::contains` with a string pattern. */
  function Contains(s: string, p: string): (b: bool)
    ensures b <==> Occurs(s, p)
  {
    Find(s, p).Some?
  }

  /** An occurrence survives putting text on either side. */
  lemma OccursInContext(a: string, s: string, b: string, p: string)
    requires Occurs(s, p)
    ensures Occurs(a + s + b, p)
  {
    var i: nat :| OccursAt(s, p, i);
    var t := a + s + b;
    assert t[|a| + i..][..|p|] == s[i..][..|p|];
    assert OccursAt(t, p, |a| + i);
  }

  /** A pattern with a character the string lacks does not occur in it. */
  lemma AbsentCharAvoids(s: string, p: string, k: nat)
    requires k < |p| && p[k] !in s
    ensures !Occurs(s, p)
  {
    forall i: nat ensures !OccursAt(s, p, i) {
      if i + |p| <= |s| {
        assert s[i..][..|p|][k] == s[i + k] != p[k];
      }
    }
  }

  /** Nothing but the empty pattern occurs in the empty string. */
  lemma NothingOccursInEmpty(p: string)
    requires |p| > 0
    ensures !Occurs("", p)
  {
  }

  /** The text of `s` before the first `c`, or all of `s` (`s.split(c).next()`). */
  function BeforeFirst(s: string, c: char): (r: string)
    ensures StartsWith(s, r)
    ensures c !in r
    ensures |r| < |s| ==> s[|r|] == c
  {
    if |s| == 0 || s[0] == c then ""
    else [s[0]] + BeforeFirst(s[1..], c)
  }

  /** When the first `c` is at `k`, the text before it is `s[..k]`. */
  lemma BeforeFirstAt(s: string, c: char, k: nat)
    requires k < |s| && s[k] == c && c !in s[..k]
    ensures BeforeFirst(s, c) == s[..k]
  {
    var r := BeforeFirst(s, c);
    assert forall j | 0 <= j < k :: s[j] != c by {
      forall j | 0 <= j < k ensures s[j] != c {
        assert s[..k][j] == s[j];
      }
    }
    assert forall j | 0 <= j < |r| :: r[j] == s[j] && r[j] != c;
  }

  /** Without a `c`, all of `s` is before the first one. */
  lemma BeforeFirstAbsent(s: string, c: char)
    requires c !in s
    ensures BeforeFirst(s, c) == s
  {
    var r := BeforeFirst(s, c);
    assert forall j | 0 <= j < |s| :: s[j] != c;
  }

  /** Drops the longest prefix of `s` whose characters all satisfy `f`. */
  function DropWhile(s: string, f: char -> bool): (r: string)
    ensures |r| <= |s| && r == s[|s| - |r|..]
    ensures forall i :: 0 <= i < |s| - |r| ==> f(s[i])
    ensures r == [] || !f(r[0])
  {
    if |s| > 0 && f(s[0]) then DropWhile(s[1..], f) else s
  }

  /** `str::trim_start_matches(c)` for a single character `c`. */
  function TrimStartMatches(s: string, c: char): (r: string)
    ensures |r| <= |s| && r == s[|s| - |r|..]
    ensures forall i :: 0 <= i < |s| - |r| ==> s[i] == c
    ensures r == [] || r[0] != c
  {
    DropWhile(s, x => x == c)
  }

  /** Removing a leading run twice removes nothing more. */
  lemma TrimStartMatchesIdempotent(s: string, c: char)
    ensures TrimStartMatches(TrimStartMatches(s, c), c) == TrimStartMatches(s, c)
  {
  }

  /** A string that does not start with `c` is left alone. */
  lemma TrimStartMatchesIdentity(s: string, c: char)
    requires s == [] || s[0] != c
    ensures TrimStartMatches(s, c) == s
  {
  }

  /** One more leading `c` makes no difference. */
  lemma {:induction false} TrimStartMatchesCons(s: string, c: char)
    ensures TrimStartMatches([c] + s, c) == TrimStartMatches(s, c)
  {
    assert ([c] + s)[1..] == s;
  }

  /** Two, one or no leading `c` in front of a string not starting with `c` are all removed. */
  lemma {:induction false} TrimStartMatchesRuns(h: string, c: char)
    requires h == [] || h[0] != c
    ensures TrimStartMatches([c, c] + h, c) == h
    ensures TrimStartMatches([c] + h, c) == h
    ensures TrimStartMatches(h, c) == h
  {
    var a := [c] + h;
    var b := [c] + a;
    assert b == [c, c] + h;
    TrimStartMatchesIdentity(h, c);
    assert TrimStartMatches(a, c) == h by {
      TrimStartMatchesCons(h, c);
    }
    assert TrimStartMatches(b, c) == h by {
      TrimStartMatchesCons(a, c);
    }
  }

  /** Any number of leading `c` in front of a string not starting with `c` is removed. */
  lemma {:induction false} TrimStartMatchesPrefix(n: nat, s: string, c: char)
    requires s == [] || s[0] != c
    ensures TrimStartMatches(seq(n, _ => c) + s, c) == s
  {
    if n > 0 {
      var t := seq(n, _ => c) + s;
      assert t[1..] == seq(n - 1, _ => c) + s;
      TrimStartMatchesPrefix(n - 1, s, c);
    } else {
      assert seq(n, _ => c) + s == s;
    }
  }

  /** Rust's `char::is_whitespace`: the Unicode White_Space property. */
  predicate IsWhitespace(c: char) {
    var n := c as int;
    (0x09 <= n <= 0x0D) || n == 0x20 || n == 0x85 || n == 0xA0 || n == 0x1680
    || (0x2000 <= n <= 0x200A) || n == 0x2028 || n == 0x2029 || n == 0x202F
    || n == 0x205F || n == 0x3000
  }

  /** `s[a..b]` is `s` with whitespace, and only whitespace, removed outside it. */
  ghost predicate WhitespaceAround(s: string, a: nat, b: nat) {
    && a <= b <= |s|
    && (forall i | 0 <= i < a :: IsWhitespace(s[i]))
    && (forall i | b <= i < |s| :: IsWhitespace(s[i]))
  }

  /** `str::trim_start`: the leading whitespace run removed. */
  function TrimStart(s: string): (r: string)
    ensures |r| <= |s| && r == s[|s| - |r|..]
    ensures forall i | 0 <= i < |s| - |r| :: IsWhitespace(s[i])
    ensures r == [] || !IsWhitespace(r[0])
  {
    if |s| > 0 && IsWhitespace(s[0]) then TrimStart(s[1..]) else s
  }

  /** `str::trim_end`: the trailing whitespace run removed. */
  function TrimEnd(s: string): (r: string)
    ensures |r| <= |s| && r == s[..|r|]
    ensures forall i | |r| <= i < |s| :: IsWhitespace(s[i])
    ensures r == [] || !IsWhitespace(r[|r| - 1])
  {
    if |s| > 0 && IsWhitespace(s[|s| - 1]) then TrimEnd(s[..|s| - 1]) else s
  }

  /** `str::trim`: the maximal whitespace runs removed from both ends. */
  function Trim(s: string): (r: string)
    ensures exists a: nat, b: nat :: WhitespaceAround(s, a, b) && r == s[a..b]
    ensures r == [] || (!IsWhitespace(r[0]) && !IsWhitespace(r[|r| - 1]))
  {
    var front := TrimStart(s);
    var r := TrimEnd(front);
    TrimBounds(s, front, r);
    r
  }

  /** Dropping whitespace from the front of `s` and then from the back leaves `s[a..b]`
      with only whitespace outside it and none at its ends. */
  lemma TrimBounds(s: string, front: string, r: string)
    requires |front| <= |s| && front == s[|s| - |front|..]
    requires forall i | 0 <= i < |s| - |front| :: IsWhitespace(s[i])
    requires front == [] || !IsWhitespace(front[0])
    requires |r| <= |front| && r == front[..|r|]
    requires forall i | |r| <= i < |front| :: IsWhitespace(front[i])
    requires r == [] || !IsWhitespace(r[|r| - 1])
    ensures exists a: nat, b: nat :: WhitespaceAround(s, a, b) && r == s[a..b]
    ensures r == [] || (!IsWhitespace(r[0]) && !IsWhitespace(r[|r| - 1]))
  {
    var a, b := |s| - |front|, |s| - |front| + |r|;
    assert r == s[a..b];
    forall i | b <= i < |s| ensures IsWhitespace(s[i]) {
      assert s[i] == front[i - a];
    }
    assert WhitespaceAround(s, a, b);
    assert |r| > 0 ==> r[0] == front[0];
  }

  /** A string with no whitespace at either end is its own trim. */
  lemma TrimOfTrimmed(s: string)
    requires s == [] || (!IsWhitespace(s[0]) && !IsWhitespace(s[|s| - 1]))
    ensures Trim(s) == s
  {
  }

  /** Every character is an ASCII digit; true of the empty string. */
  predicate AllAsciiDigits(s: string) {
    forall i | 0 <= i < |s| :: '0' <= s[i] <= '9'
  }

  function DigitChar(d: nat): (c: char)
    requires d < 10
    ensures '0' <= c <= '9' && c as int - '0' as int == d
  {
    (d + '0' as int) as char
  }

  /** Decimal rendering of a natural number, as `Display` for unsigned integers. */
  function NatToString(n: nat): (r: string)
    ensures |r| > 0 && AllAsciiDigits(r)
    decreases n
  {
    if n < 10 then [DigitChar(n)]
    else NatToString(n / 10) + [DigitChar(n % 10)]
  }

  /** The number a string of decimal digits denotes. */
  function DigitsValue(s: string): nat
    requires AllAsciiDigits(s)
  {
    if |s| == 0 then 0
    else DigitsValue(s[..|s| - 1]) * 10 + (s[|s| - 1] as int - '0' as int)
  }

  /** Reading back a rendered number gives the number. */
  lemma {:induction false} NatToStringRoundTrip(n: nat)
    ensures DigitsValue(NatToString(n)) == n
    decreases n
  {
    var r := NatToString(n);
    if n >= 10 {
      NatToStringRoundTrip(n / 10);
      assert r[..|r| - 1] == NatToString(n / 10);
    }
  }
}

=== FILE: types.dfy ===
/** The normalised entities (`src/tiktok/types.rs`) and the proxied-URL builders the templates use. */
module Types {
  import opened Outcomes
  import opened Numeric
  import opened Text
  import UrlEncoding

  /** A video as the viewer renders it. The music fields are the only optional ones. */
  datatype VideoInfo = VideoInfo(
    id: string,
    description: string,
    authorUsername: string,
    authorNickname: string,
    authorAvatar: string,
    videoUrl: string,
    thumbnailUrl: string,
    likeCount: u64,
    commentCount: u64,
    shareCount: u64,
    viewCount: u64,
    createTime: i64,
    musicTitle: Option<string>,
    musicAuthor: Option<string>)

  /** A user profile; `videos` is never filled by the resolvers. */
  datatype UserInfo = UserInfo(
    id: string,
    username: string,
    nickname: string,
    bio: string,
    avatarUrl: string,
    followerCount: u64,
    followingCount: u64,
    likeCount: u64,
    videoCount: u64,
    videos: seq<VideoInfo>)

  /** A hashtag page; `videos` is never filled by the resolvers. */
  datatype TagInfo = TagInfo(
    name: string,
    viewCount: u64,
    videos: seq<VideoInfo>)

  const PROXY_PREFIX: string := "/proxy?url="

  /** A same-origin proxy link for a media URL: the fixed prefix, then a query value in
      which no character can end or split the query (`?`, `&`, `#`), and which one round
      of decoding, the framework's or the crate's, turns back into exactly `mediaUrl`. */
  function ProxiedUrl(mediaUrl: string): (r: string)
    ensures StartsWith(r, PROXY_PREFIX)
    ensures UrlEncoding.FormDecode(r[|PROXY_PREFIX|..]) == Some(mediaUrl)
    ensures UrlEncoding.Decode(r[|PROXY_PREFIX|..]) == Some(mediaUrl)
    ensures forall i :: |PROXY_PREFIX| <= i < |r| ==> UrlEncoding.IsEncodedChar(r[i])
  {
    var r := PROXY_PREFIX + UrlEncoding.Encode(mediaUrl);
    assert r[|PROXY_PREFIX|..] == UrlEncoding.Encode(mediaUrl);
    UrlEncoding.DecodeEncode(mediaUrl);
    UrlEncoding.FormDecodeEncode(mediaUrl);
    UrlEncoding.EncodeCharset(mediaUrl);
    r
  }

  /** `VideoInfo::proxied_video_url`. */
  function ProxiedVideoUrl(v: VideoInfo): (r: string)
    ensures StartsWith(r, PROXY_PREFIX)
    ensures UrlEncoding.Decode(r[|PROXY_PREFIX|..]) == Some(v.videoUrl)
  {
    ProxiedUrl(v.videoUrl)
  }

  /** `VideoInfo::proxied_thumbnail_url`. */
  function ProxiedThumbnailUrl(v: VideoInfo): (r: string)
    ensures StartsWith(r, PROXY_PREFIX)
    ensures UrlEncoding.Decode(r[|PROXY_PREFIX|..]) == Some(v.thumbnailUrl)
  {
    ProxiedUrl(v.thumbnailUrl)
  }

  /** `UserInfo::proxied_avatar_url`. */
  function ProxiedAvatarUrl(u: UserInfo): (r: string)
    ensures StartsWith(r, PROXY_PREFIX)
    ensures UrlEncoding.Decode(r[|PROXY_PREFIX|..]) == Some(u.avatarUrl)
  {
    ProxiedUrl(u.avatarUrl)
  }

  /** Different media URLs get different proxy links. */
  lemma ProxiedUrlInjective(a: string, b: string)
    requires ProxiedUrl(a) == ProxiedUrl(b)
    ensures a == b
  {
  }
}

=== FILE: url_encoding.dfy ===
/** The `urlencoding` crate's `encode` and `decode`, over the UTF-8 bytes of a string.
    `Encode` percent-encodes every byte outside the unreserved set of section 2.3 of
    RFC 3986 as `%HH` with upper-case hex digits (section 2.1); `Decode` turns every `%HH`
    back into its byte, leaves any other `%` as it is, and then requires the bytes to be
    well-formed UTF-8 (section 3.9 of the Unicode Standard, Table 3-7). */
module UrlEncoding {
  import opened Outcomes
  import opened Numeric

  // ---------------------------------------------------------------- UTF-8

  /** The UTF-8 bytes of one Unicode scalar value. */
  function Utf8Char(c: char): (bs: seq<byte>)
    ensures 1 <= |bs| <= 4
  {
    var n := c as int;
    if n < 0x80 then [n]
    else if n < 0x800 then [0xC0 + n / 0x40, 0x80 + n % 0x40]
    else if n < 0x1_0000 then
      [0xE0 + n / 0x1000, 0x80 + (n / 0x40) % 0x40, 0x80 + n % 0x40]
    else
      [0xF0 + n / 0x4_0000, 0x80 + (n / 0x1000) % 0x40, 0x80 + (n / 0x40) % 0x40, 0x80 + n % 0x40]
  }

  /** The UTF-8 bytes of a string (`str::as_bytes`). */
  function Utf8(s: string): seq<byte> {
    if |s| == 0 then [] else Utf8Char(s[0]) + Utf8(s[1..])
  }

  predicate IsContinuation(b: byte) {
    0x80 <= b < 0xC0
  }

  /** Length and value of the well-formed UTF-8 sequence at the front of `bs`, if any. */
  function DecodeFirst(bs: seq<byte>): (r: Option<(nat, char)>)
    ensures r.Some? ==> 1 <= r.value.0 <= |bs|
  {
    if |bs| == 0 then None
    else if bs[0] < 0x80 then Some((1, bs[0] as char))
    else if 0xC2 <= bs[0] <= 0xDF then DecodeTwo(bs)
    else if 0xE0 <= bs[0] <= 0xEF then DecodeThree(bs)
    else if 0xF0 <= bs[0] <= 0xF4 then DecodeFour(bs)
    else None
  }

  function DecodeTwo(bs: seq<byte>): (r: Option<(nat, char)>)
    requires |bs| > 0 && 0xC2 <= bs[0] <= 0xDF
    ensures r.Some? ==> r.value.0 == 2 <= |bs|
  {
    if |bs| >= 2 && IsContinuation(bs[1]) then
      var n := (bs[0] as int - 0xC0) * 0x40 + (bs[1] as int - 0x80);
      Some((2, n as char))
    else None
  }

  function DecodeThree(bs: seq<byte>): (r: Option<(nat, char)>)
    requires |bs| > 0 && 0xE0 <= bs[0] <= 0xEF
    ensures r.Some? ==> r.value.0 == 3 <= |bs|
  {
    var lo := if bs[0] == 0xE0 then 0xA0 else 0x80;
    var hi := if bs[0] == 0xED then 0xA0 else 0xC0;
    if |bs| >= 3 && lo <= bs[1] < hi && IsContinuation(bs[2]) then
      var n := (bs[0] as int - 0xE0) * 0x1000 + (bs[1] as int - 0x80) * 0x40 + (bs[2] as int - 0x80);
      assert 0x800 <= n < 0xD800 || 0xE000 <= n < 0x1_0000;
      Some((3, n as char))
    else None
  }

  function DecodeFour(bs: seq<byte>): (r: Option<(nat, char)>)
    requires |bs| > 0 && 0xF0 <= bs[0] <= 0xF4
    ensures r.Some? ==> r.value.0 == 4 <= |bs|
  {
    var lo := if bs[0] == 0xF0 then 0x90 else 0x80;
    var hi := if bs[0] == 0xF4 then 0x90 else 0xC0;
    if |bs| >= 4 && lo <= bs[1] < hi && IsContinuation(bs[2]) && IsContinuation(bs[3]) then
      var n := (bs[0] as int - 0xF0) * 0x4_0000 + (bs[1] as int - 0x80) * 0x1000
               + (bs[2] as int - 0x80) * 0x40 + (bs[3] as int - 0x80);
      assert 0x1_0000 <= n < 0x11_0000;
      Some((4, n as char))
    else None
  }

  /** `String::from_utf8`: the text the bytes spell, or `None` if they are not UTF-8. */
  function Utf8Decode(bs: seq<byte>): Option<string>
    decreases |bs|
  {
    if |bs| == 0 then Some("")
    else match DecodeFirst(bs)
      case None => None
      case Some((k, c)) =>
        match Utf8Decode(bs[k..])
        case None => None
        case Some(rest) => Some([c] + rest)
  }

  /** The decoder reads back exactly the bytes of one encoded character. */
  lemma DecodeFirstUtf8Char(c: char, rest: seq<byte>)
    ensures DecodeFirst(Utf8Char(c) + rest) == Some((|Utf8Char(c)|, c))
  {
    var n := c as int;
    if n < 0x80 {
    } else if n < 0x800 {
      DecodeTwoChar(c, rest);
    } else if n < 0x1_0000 {
      DecodeThreeChar(c, rest);
    } else {
      DecodeFourChar(c, rest);
    }
  }

  lemma DecodeTwoChar(c: char, rest: seq<byte>)
    requires 0x80 <= c as int < 0x800
    ensures DecodeFirst(Utf8Char(c) + rest) == Some((2, c))
  {
    var n := c as int;
    var bs := Utf8Char(c) + rest;
    assert bs[0] == 0xC0 + n / 0x40 && bs[1] == 0x80 + n % 0x40;
    assert (n / 0x40) * 0x40 + n % 0x40 == n;
    assert DecodeTwo(bs) == Some((2, c));
  }

  lemma DecodeThreeChar(c: char, rest: seq<byte>)
    requires 0x800 <= c as int < 0x1_0000
    ensures DecodeFirst(Utf8Char(c) + rest) == Some((3, c))
  {
    var n := c as int;
    var q := n / 0x40;
    var bs := Utf8Char(c) + rest;
    assert bs[0] == 0xE0 + n / 0x1000 && bs[1] == 0x80 + q % 0x40 && bs[2] == 0x80 + n % 0x40;
    assert n / 0x1000 == q / 0x40;
    assert q * 0x40 + n % 0x40 == n;
    assert (q / 0x40) * 0x40 + q % 0x40 == q;
    assert DecodeThree(bs) == Some((3, c));
  }

  lemma DecodeFourChar(c: char, rest: seq<byte>)
    requires 0x1_0000 <= c as int
    ensures DecodeFirst(Utf8Char(c) + rest) == Some((4, c))
  {
    var n := c as int;
    var q := n / 0x40;
    var q2 := q / 0x40;
    var bs := Utf8Char(c) + rest;
    assert n / 0x1000 == q2;
    assert n / 0x4_0000 == q2 / 0x40;
    assert bs[0] == 0xF0 + q2 / 0x40 && bs[1] == 0x80 + q2 % 0x40;
    assert bs[2] == 0x80 + q % 0x40 && bs[3] == 0x80 + n % 0x40;
    assert q * 0x40 + n % 0x40 == n;
    assert q2 * 0x40 + q % 0x40 == q;
    assert (q2 / 0x40) * 0x40 + q2 % 0x40 == q2;
    assert DecodeFour(bs) == Some((4, c));
  }

  /** Decoding the UTF-8 bytes of a string gives the string back. */
  lemma {:induction false} Utf8RoundTrip(s: string)
    ensures Utf8Decode(Utf8(s)) == Some(s)
  {
    if |s| > 0 {
      var head := Utf8Char(s[0]);
      DecodeFirstUtf8Char(s[0], Utf8(s[1..]));
      assert (head + Utf8(s[1..]))[|head|..] == Utf8(s[1..]);
      Utf8RoundTrip(s[1..]);
      assert [s[0]] + s[1..] == s;
    }
  }

  lemma Utf8Append(s: string, t: string)
    ensures Utf8(s + t) == Utf8(s) + Utf8(t)
  {
    if |s| > 0 {
      assert (s + t)[1..] == s[1..] + t;
      Utf8Append(s[1..], t);
    } else {
      assert s + t == t;
    }
  }

  // ---------------------------------------------------------------- percent-encoding

  /** The unreserved characters of section 2.3 of RFC 3986: ALPHA / DIGIT / "-" / "." / "_" / "~". */
  predicate IsUnreserved(b: int) {
    ('A' as int <= b <= 'Z' as int) || ('a' as int <= b <= 'z' as int)
    || ('0' as int <= b <= '9' as int)
    || b == '-' as int || b == '.' as int || b == '_' as int || b == '~' as int
  }

  /** An upper-case hexadecimal digit. */
  function HexDigit(d: nat): (c: char)
    requires d < 16
    ensures IsHexDigit(c as int)
  {
    "0123456789ABCDEF"[d]
  }

  predicate IsHexDigit(b: int) {
    ('0' as int <= b <= '9' as int) || ('A' as int <= b <= 'F' as int) || ('a' as int <= b <= 'f' as int)
  }

  /** The value of a hexadecimal digit of either case. */
  function HexValue(b: int): (v: nat)
    requires IsHexDigit(b)
    ensures v < 16
  {
    if b <= '9' as int then b - '0' as int
    else if b <= 'F' as int then b - 'A' as int + 10
    else b - 'a' as int + 10
  }

  lemma HexValueOfDigit(d: nat)
    requires d < 16
    ensures HexValue(HexDigit(d) as int) == d
  {
  }

  /** One byte as it appears in `encode`'s output. */
  function EncodeByte(b: byte): (r: string)
    ensures |r| == 1 || |r| == 3
  {
    if IsUnreserved(b) then [b as char]
    else ['%', HexDigit(b / 16), HexDigit(b % 16)]
  }

  function EncodeBytes(bs: seq<byte>): string {
    if |bs| == 0 then "" else EncodeByte(bs[0]) + EncodeBytes(bs[1..])
  }

  /** `urlencoding::encode`. */
  function Encode(s: string): string {
    EncodeBytes(Utf8(s))
  }

  /** A character that may appear in `encode`'s output. */
  predicate IsEncodedChar(c: char) {
    IsUnreserved(c as int) || c == '%'
  }

  /** The output of `encode` is built from unreserved characters and `%` escapes only,
      so it carries no query delimiter (`?`, `&`, `=`, `#`) and no path separator. */
  lemma {:induction false} EncodeCharset(s: string)
    ensures forall i :: 0 <= i < |Encode(s)| ==> IsEncodedChar(Encode(s)[i])
  {
    EncodeBytesCharset(Utf8(s));
  }

  lemma {:induction false} EncodeBytesCharset(bs: seq<byte>)
    ensures forall i :: 0 <= i < |EncodeBytes(bs)| ==> IsEncodedChar(EncodeBytes(bs)[i])
  {
    if |bs| > 0 {
      EncodeBytesCharset(bs[1..]);
    }
  }

  /** `urlencoding::decode_binary`: every `%` followed by two hex digits becomes that byte;
      every other byte, a stray `%` included, is kept. */
  function PercentDecode(bs: seq<byte>): seq<byte>
    decreases |bs|
  {
    if |bs| == 0 then []
    else if |bs| >= 3 && bs[0] == '%' as int && IsHexDigit(bs[1]) && IsHexDigit(bs[2]) then
      [HexValue(bs[1]) * 16 + HexValue(bs[2])] + PercentDecode(bs[3..])
    else [bs[0]] + PercentDecode(bs[1..])
  }

  /** `urlencoding::decode`: percent-decoding followed by UTF-8 validation. */
  function Decode(s: string): Option<string> {
    Utf8Decode(PercentDecode(Utf8(s)))
  }

  /** Percent-decoding the encoded bytes restores them. */
  lemma {:induction false} PercentDecodeEncode(bs: seq<byte>)
    ensures PercentDecode(Utf8(EncodeBytes(bs))) == bs
  {
    if |bs| > 0 {
      var tail := Utf8(EncodeBytes(bs[1..]));
      Utf8Append(EncodeByte(bs[0]), EncodeBytes(bs[1..]));
      PercentDecodeEncodeByte(bs[0], tail);
      PercentDecodeEncode(bs[1..]);
      assert [bs[0]] + bs[1..] == bs;
    }
  }

  /** Three ASCII characters are three bytes. */
  lemma Utf8ThreeAscii(a: char, b: char, c: char)
    requires a as int < 0x80 && b as int < 0x80 && c as int < 0x80
    ensures Utf8([a, b, c]) == [a as int, b as int, c as int]
  {
    assert [c][1..] == [];
    assert Utf8([c]) == [c as int];
    assert [b, c][1..] == [c];
    assert Utf8([b, c]) == [b as int] + Utf8([c]);
    assert [a, b, c][1..] == [b, c];
    assert Utf8([a, b, c]) == [a as int] + Utf8([b, c]);
  }

  /** A well-formed escape decodes to the byte it names, whatever follows it. */
  lemma PercentDecodeEscape(hi: byte, lo: byte, tail: seq<byte>)
    requires IsHexDigit(hi) && IsHexDigit(lo)
    ensures PercentDecode([37, hi, lo] + tail) == [HexValue(hi) * 16 + HexValue(lo)] + PercentDecode(tail)
  {
    var whole := [37, hi, lo] + tail;
    assert whole[3..] == tail;
  }

  /** An unreserved byte is its own encoding and decodes to itself. */
  lemma PercentDecodeUnreserved(b: byte, tail: seq<byte>)
    requires IsUnreserved(b)
    ensures PercentDecode(Utf8(EncodeByte(b)) + tail) == [b] + PercentDecode(tail)
  {
    assert EncodeByte(b) == [b as char];
    assert [b as char][1..] == [];
    assert Utf8([b as char]) == [b];
    assert ([b] + tail)[1..] == tail;
  }

  /** A reserved byte is encoded as an escape that decodes to it. */
  lemma PercentDecodeReserved(b: byte, tail: seq<byte>)
    requires !IsUnreserved(b)
    ensures PercentDecode(Utf8(EncodeByte(b)) + tail) == [b] + PercentDecode(tail)
  {
    var q, r := b / 16, b % 16;
    assert q * 16 + r == b && q < 16 && r < 16;
    var hi := HexDigit(q);
    var lo := HexDigit(r);
    assert EncodeByte(b) == ['%', hi, lo];
    Utf8ThreeAscii('%', hi, lo);
    HexValueOfDigit(q);
    HexValueOfDigit(r);
    PercentDecodeEscape(hi as int, lo as int, tail);
  }

  /** One encoded byte decodes to itself, whatever follows it. */
  lemma PercentDecodeEncodeByte(b: byte, tail: seq<byte>)
    ensures PercentDecode(Utf8(EncodeByte(b)) + tail) == [b] + PercentDecode(tail)
  {
    if IsUnreserved(b) {
      PercentDecodeUnreserved(b, tail);
    } else {
      PercentDecodeReserved(b, tail);
    }
  }

  /** `decode` undoes `encode` on every string. */
  lemma DecodeEncode(s: string)
    ensures Decode(Encode(s)) == Some(s)
  {
    PercentDecodeEncode(Utf8(s));
    Utf8RoundTrip(s);
  }

  // ---------------------------------------------------------------- form decoding

  /** The `application/x-www-form-urlencoded` reading of `+` as a space. */
  function PlusAsSpace(s: string): (r: string)
    ensures |r| == |s|
    ensures forall i | 0 <= i < |s| :: r[i] == (if s[i] == '+' then ' ' else s[i])
  {
    if |s| == 0 then "" else [if s[0] == '+' then ' ' else s[0]] + PlusAsSpace(s[1..])
  }

  /** How the web framework's `Query` extractor decodes one query value before a handler
      sees it: `+` becomes a space, then every `%HH` becomes its byte, then the bytes are
      read as UTF-8. */
  function FormDecode(s: string): (r: Option<string>)
    ensures '+' !in s ==> r == Decode(s)
  {
    assert '+' !in s ==> PlusAsSpace(s) == s;
    Decode(PlusAsSpace(s))
  }

  /** An `encode`d value holds no `+`, so the framework's decoding already gives back the
      original string: the handler receives the decoded text, not the link's text. */
  lemma FormDecodeEncode(s: string)
    ensures FormDecode(Encode(s)) == Some(s)
  {
    EncodeCharset(s);
    assert '+' !in Encode(s) by {
      forall i | 0 <= i < |Encode(s)| ensures Encode(s)[i] != '+' {
        assert IsEncodedChar(Encode(s)[i]);
      }
    }
    DecodeEncode(s);
  }

  /** A string without `%` has no `%` byte: multi-byte sequences use only bytes from 0x80. */
  lemma {:induction false} NoPercentByte(s: string)
    requires '%' !in s
    ensures 37 !in Utf8(s)
  {
    if |s| > 0 {
      assert s[0] != '%' && '%' !in s[1..];
      assert 37 !in Utf8Char(s[0]);
      NoPercentByte(s[1..]);
    }
  }

  /** Bytes without `%` are left alone, and leave what follows them alone. */
  lemma {:induction false} PercentDecodeNoPercent(a: seq<byte>, b: seq<byte>)
    requires 37 !in a
    ensures PercentDecode(a + b) == a + PercentDecode(b)
    decreases |a|
  {
    if |a| > 0 {
      assert (a + b)[1..] == a[1..] + b;
      PercentDecodeNoPercent(a[1..], b);
      assert a == [a[0]] + a[1..];
    } else {
      assert a + b == b;
    }
  }

  /** `decode` turns an escaped plus sign `%2B` into `+`, whatever `%`-free text precedes it. */
  lemma DecodeEscapedPlus(pre: string)
    requires '%' !in pre
    ensures Decode(pre + "%2B") == Some(pre + "+")
  {
    Utf8Append(pre, "%2B");
    Utf8ThreeAscii('%', '2', 'B');
    assert "%2B" == ['%', '2', 'B'];
    NoPercentByte(pre);
    PercentDecodeNoPercent(Utf8(pre), [37, 50, 66]);
    PercentDecodeEscape(50, 66, []);
    assert PercentDecode([37, 50, 66]) == [43] by {
      assert [37, 50, 66] + [] == [37, 50, 66];
    }
    Utf8Append(pre, "+");
    assert Utf8("+") == [43] by { assert "+"[1..] == ""; }
    Utf8RoundTrip(pre + "+");
  }
}
